=== FILE: README.md ===
# NewtonVR hand and interactable bookkeeping in Dafny

This project models the discrete core of NewtonVR's hand interaction. NewtonVR is a Unity physics-based VR interaction library. The model has two halves.

- **The hand (`NVRHand`).** This covers:
  - the hover set, kept by the trigger enter/stay/exit callbacks;
  - picking up the closest hovered interactable;
  - the per-frame transition rules of the Hold, Toggle and ByScript interaction styles, including the two-button hold;
  - the edge-triggered is-hovering notification;
  - the visibility level and its lock;
  - the 3000 µs haptic guard;
  - the ring of recent positions read back as a position delta.
- **The grabbable item (`NVRInteractableItem`).** This covers:
  - one pickup pose per holding hand;
  - the drag saved on grab and restored when the last hand lets go;
  - the physic-material cache;
  - the velocity-history ring, whose mean becomes the release velocity;
  - the external-velocity accumulator, blended half-way;
  - the choice of the interaction point nearest the hand;
  - folding the rotation angle into (-180, 180].

Every operation is a pure function from one immutable state record to the next. UnityEvents, and calls the hand makes into the interactable it holds, are appended to an event log kept in the state. That lets "fires exactly once" and "never fires" be stated directly.

Several engine inputs become parameters:
- the enumeration order of the hover `Dictionary`;
- which interactables have been destroyed (the pickup scan skips them, as Unity's null comparison does);
- distances, `CanAttach` and the frame time;
- this frame's button flags;
- the velocities the item's control step produces.

Vectors are triples of reals. The engine's `Vector3 ==` is modelled as its approximate comparison: squared difference below 1e-10.

Modules:
- `Ids`, `Optional` and `Vectors` are shared vocabulary.
- `HoverSet`, `PoseRing` and `Hand` model `NVRHand`.
- `HandProperties` states properties of the hand that span several calls or one interaction style.
- `HandHost` drives the hand through any interleaving of the modelled host calls. These are frames, physics steps, trigger callbacks, deregistration, direct begin/end calls from scripts, and scripts setting the public `AbleToInteract` field. It proves that the hover set stays well formed and that the is-hovering notifications strictly alternate.
- `VelocityHistory`, `Materials`, `InteractableItem` and `Tracking` model `NVRInteractableItem`.
- `ItemProperties` states the item's multi-call properties.

## Model

| member | source | states |
|---|---|---|
| HoverSet.AddOverlap | NewtonVR/NVRHand.cs:810-834 | After an enter or stay, the interactable and collider are recorded. An existing first-overlap time is never overwritten; a new collider gets the current time. No other key or collider changes, and every key keeps a non-empty collider map. |
| HoverSet.RemoveOverlap | NewtonVR/NVRHand.cs:836-853 | An exit for an unrecorded collider changes nothing. Otherwise the collider is dropped, and the interactable stays a key exactly when it had more than one collider. Other keys are untouched and well-formedness is kept. |
| HoverSet.HoveringIffNonEmpty | NewtonVR/NVRHand.cs:144-157 | In a well-formed hover set, "some key has a collider" (`IsHovering`) holds exactly when the set has any key. |
| HoverSet.EarliestOverlap | NewtonVR/NVRHand.cs:401 | The value ordered first among an interactable's overlap times is one of its times, and no other time is smaller. |
| HoverSet.Forget | NewtonVR/NVRHand.cs:750-751 | Removing an interactable leaves exactly the other keys with their collider maps. An absent key is a no-op. |
| Hand.OnTriggerEnterOrStay | NewtonVR/NVRHand.cs:810-834 | A collider resolving to no interactable, or to a disabled one, leaves the hand unchanged. Otherwise only the hover set changes, by `AddOverlap`, and it stays well formed. |
| Hand.OnTriggerExit | NewtonVR/NVRHand.cs:836-853 | A collider resolving to no interactable leaves the hand unchanged. Otherwise only the hover set changes, by `RemoveOverlap`. The enabled flag is not consulted. |
| Hand.DeregisterInteractable | NewtonVR/NVRHand.cs:868-875 | The interactable is no longer held (if it was) and no longer a hover key. The other keys remain. No event is raised, and state and visibility are unchanged. |
| Hand.BeginInteraction | NewtonVR/NVRHand.cs:726-746 | Without `CanAttach` nothing changes. With it, the item becomes held and exactly three events follow: custom-hands event, the item's BeginInteraction, then OnBeginInteraction. Only the held item and the event log change. |
| Hand.EndInteraction | NewtonVR/NVRHand.cs:748-779 | Nothing is held afterwards, and the given item is no longer a hover key. The held item (if any) gets exactly one end triple of events; with nothing held, no event at all. Toggle style ends in Idle; other styles keep their state. Only the held item, hover set, state and event log can change. |
| Hand.ScanFindsFirstClosest | NewtonVR/NVRHand.cs:786-798 | The scan ends either on its starting candidate or on the first live key, in enumeration order, that is strictly nearer than every earlier live key. Its distance is at most every live key's distance. |
| Hand.ClosestCandidate | NewtonVR/NVRHand.cs:781-808 | No candidate exactly when no live key is closer than `float.MaxValue`. Otherwise the candidate is the first closest key in the enumeration order. |
| Hand.PickupClosest | NewtonVR/NVRHand.cs:781-808 | Returns true exactly when some live hover key is closer than `float.MaxValue`; when false the hand is unchanged. When true, the first closest key is held if it can attach; if it cannot, the hand is unchanged. Only the held item and the event log can change. |
| Hand.HoldRules | NewtonVR/NVRHand.cs:463-496 | Hold style never touches the hover set, `WasHovering`, visibility or the pose ring. It only appends events that are not is-hovering notifications. |
| Hand.ToggleRules | NewtonVR/NVRHand.cs:497-528 | Toggle style never touches the hover set, `WasHovering`, visibility or the pose ring. It only appends events that are not is-hovering notifications. |
| Hand.GrabNotifications | NewtonVR/NVRHand.cs:435-460 | A hand that may not interact appends only the release notification (Hold style, on a release edge) and then the grab notification (on a grab edge). Nothing else in the hand changes. |
| Hand.StyleRules | NewtonVR/NVRHand.cs:463-532 | Whatever the style, the hover set, `WasHovering`, visibility and pose ring are untouched and no is-hovering notification is raised. ByScript changes nothing. |
| Hand.UpdateInteractions | NewtonVR/NVRHand.cs:433-538 | When interaction is disabled, only the grab notifications are raised: release (Hold style only), then grab. Everything else is unchanged. In every case the hover set, `WasHovering` and visibility are untouched, and no is-hovering notification is raised. |
| Hand.HoverUpdates | NewtonVR/NVRHand.cs:393-404 | Every call is a hovering update to an enumerated hover key that has a collider, carrying the time since that key's earliest overlap. Every enumerated key with a collider gets its call. When no key is enumerated twice, no call is repeated. |
| Hand.UpdateHovering | NewtonVR/NVRHand.cs:391-421 | `WasHovering` turns on exactly when it was off and all of these hold: a device, nothing held, something hovered, vibrate-on-hover. It turns off exactly when it was on and nothing is hovered. An is-hovering notification carrying the new value is appended exactly when it flips. |
| Hand.UpdateVisibilityAndColliders | NewtonVR/NVRHand.cs:540-623 | Only visibility, lock and state can change. With physical hands the level never changes while the lock is held, and a Toggle hand's state is never changed. Without physical hands, state and lock stay. Invisible-on-interaction then gives Invisible while holding and Ghost otherwise, and without it nothing changes. ByScript with physical hands changes nothing. |
| Hand.Update | NewtonVR/NVRHand.cs:339-363 | The frame's enumeration order must list every hover key exactly once, as enumerating the dictionary does. An uninitialised hand waits until its device is ready, then becomes Ghost and Idle. The per-frame steps never change the hover set, style or pose ring. |
| Hand.FixedUpdate | NewtonVR/NVRHand.cs:710-724 | An uninitialised hand is unchanged. Otherwise only the ring changes: the position lands at the old index, and the index advances by one modulo the five samples. |
| Hand.TriggerHapticPulse | NewtonVR/NVRHand.cs:625-638 | With no device nothing happens. With one, a pulse under 3000 µs is forwarded once and a longer one only produces the warning. The hand state is untouched. The duration defaults to 500 µs and the button to Grip. |
| PoseRing.Push | NewtonVR/NVRHand.cs:714-723 | One physics step writes exactly one slot, at the current index. The index advances modulo 5 and stays a valid slot. |
| PoseRing.Behind | NewtonVR/NVRHand.cs:686-692 | The slot read as "last" (or "second to last") is the one written one (or two) steps before the current index, wrapping around. |
| Hand.GetPositionDelta | NewtonVR/NVRHand.cs:684-695 | The delta is the position written one physics step before the current index minus the one written two steps before, both read around the five-slot ring. |
| PoseRing.PositionDeltaAfterTwoSteps | NewtonVR/NVRHand.cs:684-695 | After two physics steps at p and then q, the position delta is q − p, wherever the index stood. |
| HandProperties.PositionDeltaAfterTwoPhysicsSteps | NewtonVR/NVRHand.cs:684-724 | After two physics steps of an initialised hand at p and then q, the hand reports the position delta q − p, whatever earlier samples the ring held. |
| HandProperties.HapticPulseForwardedOnce | NewtonVR/NVRHand.cs:625-638 | The device receives the pulse exactly once when there is a device and the duration is below 3000, and otherwise never. Without a device the log is unchanged; with one, a pulse of 3000 or more appends only the warning. |
| HandProperties.DefaultPulseIsForwarded | NewtonVR/NVRHand.cs:625-631 | A pulse requested without arguments is forwarded as 500 µs on the grip button. |
| HandProperties.EndInteractionIdempotent | NewtonVR/NVRHand.cs:748-779 | Ending twice gives the same hand as ending once. |
| HandProperties.EndInteractionCallsItemAtMostOnce | NewtonVR/NVRHand.cs:753-770 | One end call reaches an interactable's EndInteraction once if it was held, and not at all otherwise. |
| HandProperties.BeginThenEnd | NewtonVR/NVRHand.cs:726-779 | Grabbing then releasing an attachable item leaves nothing held and the hover set unchanged. The log gains the begin triple followed by the end triple. |
| HandProperties.PickupExample | NewtonVR/NVRHand.cs:781-808 | Over hover keys at distances 2.0, 0.5 and 1.0, pickup grabs the one at 0.5. |
| HandProperties.DisabledHandOnlyNotifies | NewtonVR/NVRHand.cs:435-460 | With interaction disabled, state, held item, lock and hover set are unchanged. Only grab notifications are appended. |
| HandProperties.HoldReleasesOnlyOnReleaseEdge | NewtonVR/NVRHand.cs:463-496 | A Hold hand holding something lets go exactly on a release edge with no grab edge in the same frame, since a grab edge takes precedence. Otherwise it keeps the same item. |
| HandProperties.TwoButtonHoldSurvivesOneButtonUp | NewtonVR/NVRHand.cs:465-470 | With two hold buttons, lifting one while the other stays pressed keeps the held item. |
| HandProperties.HoldGrabEdgePicksUp | NewtonVR/NVRHand.cs:479-491 | A grab edge while holding nothing grabs the first closest attachable candidate. |
| HandProperties.HoldReleaseClearsLock | NewtonVR/NVRHand.cs:470-477 | A release edge clears the visibility lock; without one the interaction step keeps the lock. |
| HandProperties.ToggleFromIdle | NewtonVR/NVRHand.cs:502-515 | From Idle, a grab edge picks up. It goes to GripToggleOnInteracting if something is held, else to GripToggleOnNotInteracting with physical hands, else stays Idle. |
| HandProperties.ToggleOffFromToggledOn | NewtonVR/NVRHand.cs:516-526 | From either toggled-on state, a grab edge returns to Idle and clears the lock. From GripToggleOnInteracting it also releases the held item; from GripToggleOnNotInteracting an item a script began stays held. |
| HandProperties.ToggleIgnoresFramesWithoutGrab | NewtonVR/NVRHand.cs:497-528 | Without a grab edge, Toggle style changes neither state, held item nor lock. |
| HandProperties.ByScriptMakesNoTransitions | NewtonVR/NVRHand.cs:529-537 | ByScript style changes neither state, held item nor lock. The only event is the held item's per-frame update. |
| HandProperties.LockedHoldHandKeepsVisibility | NewtonVR/NVRHand.cs:544-579 | With physical hands, a locked Hold hand is left exactly as it was by the visibility step. |
| HandProperties.LockedToggleHand | NewtonVR/NVRHand.cs:580-610 | A locked toggled-on hand is unchanged by the visibility step. A locked Idle hand only loses its lock. |
| HandProperties.HoldGripOverNothingShowsHand | NewtonVR/NVRHand.cs:546-554 | An unlocked Hold hand gripping over nothing becomes Visible, takes the lock and enters GripDownNotInteracting. A hand already in GripDownNotInteracting is left as it is. |
| HandProperties.LockedHoldHandStaysPut | NewtonVR/NVRHand.cs:544-579 | Any number of visibility steps leave a locked Hold hand unchanged. |
| HandProperties.HoldGripWhileHolding | NewtonVR/NVRHand.cs:555-570 | An unlocked Hold hand that holds something, on a down-edge of either hold button, becomes Invisible (Ghost when hiding on interaction is off). It takes the lock and enters GripDownInteracting. A hand already in GripDownInteracting is left as it is. |
| HandProperties.HoldReleasedHandGhosts | NewtonVR/NVRHand.cs:571-578 | An unlocked Hold hand holding nothing with the grip up becomes Ghost and Idle without taking the lock. An Idle one is left as it is. |
| HandProperties.HoldingWithoutGrabEdgeKeepsHand | NewtonVR/NVRHand.cs:544-579 | A Hold hand that holds something and sees no down-edge keeps its level, lock and state. |
| HandProperties.ToggleIdleLevel | NewtonVR/NVRHand.cs:582-593 | An unlocked Idle Toggle hand that is not Ghost becomes Ghost and stays unlocked. Otherwise only its lock is cleared. |
| HandProperties.ToggleOnLevels | NewtonVR/NVRHand.cs:594-609 | An unlocked toggled-on hand takes the lock. It becomes Ghost when holding something and Visible when toggled on over nothing. |
| HandProperties.ToggleIdleGhostsFrameAfterUnlock | NewtonVR/NVRHand.cs:582-593 | A locked Idle Toggle hand that is not Ghost keeps its level on the frame that clears the lock. It becomes Ghost on the frame after. |
| HandProperties.HoldReleaseUnlocksAndGhosts | NewtonVR/NVRHand.cs:463-579 | A Hold hand locked in GripDownInteracting, on a frame that lifts its single hold button, lets go and loses the lock in the interaction step. The visibility step of the same frame then makes it Ghost and Idle. |
| HandProperties.HoverUpdatesOverEnumeration | NewtonVR/NVRHand.cs:393-404 | Over an enumeration of the hover dictionary, the hovering-update calls go to exactly the keys that have a collider, once each, with the time since the earliest overlap. |
| HandProperties.IdleHoverStepUpdatesEachHoveredKeyOnce | NewtonVR/NVRHand.cs:391-404 | While Idle, the hover step calls `HoveringUpdate` exactly on the keys that have a collider, once each, with the time since the key's earliest overlap. In any other state it makes no such call. |
| HandHost.UpdateHoveringNotifiesOnFlip | NewtonVR/NVRHand.cs:391-421 | Across the hover step, the list of is-hovering notifications grows by the new `WasHovering` exactly when it flips. |
| HandHost.FrameNotifiesOnFlip | NewtonVR/NVRHand.cs:339-363 | Across a whole frame, the is-hovering notifications grow by the new `WasHovering` exactly when it flips. |
| HandHost.StepPreservesGood | NewtonVR/NVRHand.cs:339-363 | Every host call whose frame enumerates the current hover dictionary keeps all three invariants: a well-formed hover set, a valid ring, and an alternating notification log that ends at `WasHovering`. |
| HandHost.Run | NewtonVR/NVRHand.cs:339-363 | A run of host calls from a good hand ends in a good hand, provided each frame enumerates the hover dictionary of the hand it reaches. |
| HandHost.HoverNotificationsAlternate | NewtonVR/NVRHand.cs:406-420 | Over any run from a fresh hand whose frames enumerate the hover dictionary, the hover set stays well formed. No two consecutive is-hovering notifications carry the same value, and the first reports hovering began. |
| VelocityHistory.Allocate | NewtonVR/NVRInteractableItem.cs:84-88 | The arrays exist, all empty, only for a positive number of steps, and the step starts at 0. |
| VelocityHistory.Reset | NewtonVR/NVRInteractableItem.cs:432-441 | The step becomes 0 and every slot becomes null, keeping the length. |
| VelocityHistory.Record | NewtonVR/NVRInteractableItem.cs:260-270 | Without slots nothing changes. Otherwise the step advances modulo the length and exactly one slot in each array is written, with that step's velocities. |
| VelocityHistory.NoneCountZero | NewtonVR/NVRInteractableItem.cs:449-460 | No slot is counted exactly when every slot is null. |
| VelocityHistory.Mean | NewtonVR/NVRInteractableItem.cs:443-468 | There is no mean exactly when every slot is null. |
| VelocityHistory.GetMeanVector | NewtonVR/NVRInteractableItem.cs:443-468 | The loop computes the component-wise sum of the filled slots divided by their count. It returns null exactly when every slot is null. |
| VelocityHistory.MeanOfOneFilledSlot | NewtonVR/NVRInteractableItem.cs:443-468 | A history with one filled slot has that slot's vector as its mean. |
| VelocityHistory.MeanAfterOneStep | NewtonVR/NVRInteractableItem.cs:260-270 | One step recorded into an empty history gives a mean equal to the recorded velocities. |
| Materials.Assign | NewtonVR/NVRInteractableItem.cs:483-484 | Setting one collider's material changes no other collider's. |
| Materials.DisableAll | NewtonVR/NVRInteractableItem.cs:476-485 | Every listed collider loses its material and gets a cache entry; unlisted colliders and their cache entries are untouched. With no collider listed twice, each cache entry is the material the collider had. |
| Materials.EnableAll | NewtonVR/NVRInteractableItem.cs:494-505 | Every listed collider with a cache entry gets the cached material back, and all other colliders keep theirs. The cache is never changed. |
| Materials.DisablePhysicalMaterials | NewtonVR/NVRInteractableItem.cs:470-486 | A null collider array changes nothing. |
| Materials.EnablePhysicalMaterials | NewtonVR/NVRInteractableItem.cs:488-506 | A null collider array changes nothing. |
| Materials.RoundTrip | NewtonVR/NVRInteractableItem.cs:470-506 | Disabling then restoring gives every collider back its original material, when no collider is listed twice. |
| Materials.SecondDisableLosesMaterials | NewtonVR/NVRInteractableItem.cs:483 | Disabling twice before restoring caches the cleared materials, so every listed collider ends with none. |
| Materials.CacheOfClearedIsNull | NewtonVR/NVRInteractableItem.cs:483 | Disabling colliders that already have no material caches null for them. |
| Materials.EnableIdempotent | NewtonVR/NVRInteractableItem.cs:488-506 | Restoring twice is the same as restoring once. |
| InteractableItem.Spawn | NewtonVR/NVRInteractableItem.cs:28-40 | A new item is held by no hand, has no events and has −1 as its saved drag and saved angular drag. Its history has the configured length (0 when not positive). |
| InteractableItem.ResetVelocityHistory | NewtonVR/NVRInteractableItem.cs:432-441 | Only the history changes: step 0, every slot null, same length. |
| InteractableItem.ApplyVelocityHistory | NewtonVR/NVRInteractableItem.cs:414-430 | Only the two velocities can change. Each becomes its history's mean when there is one, and stays as it was when every slot is null. |
| InteractableItem.BeginInteraction | NewtonVR/NVRInteractableItem.cs:312-335 | The current drag is saved on every call, drag becomes 0 and angular drag 0.05, and the materials are disabled. It throws exactly when the hand already holds the item; otherwise that hand's pose is added, the history is emptied and one begin event is raised. The colliders, pose, velocities and external accumulators are unchanged. |
| InteractableItem.RemainingPickups | NewtonVR/NVRInteractableItem.cs:341-359 | A null hand removes every pickup; a given hand removes only its own; other entries are unchanged. |
| InteractableItem.EndInteraction | NewtonVR/NVRInteractableItem.cs:337-376 | Once no pickup remains, it restores the saved drag, restores the materials, applies the history mean, empties both velocity histories and raises one end event; nothing else changes. While hands remain, only the pickup map changes. |
| InteractableItem.AddExternalVelocity | NewtonVR/NVRInteractableItem.cs:288-298 | A zero accumulator takes the pushed velocity as is. Otherwise the gap to the pushed velocity halves. Nothing else changes. |
| InteractableItem.AddExternalAngularVelocity | NewtonVR/NVRInteractableItem.cs:300-310 | The same as `AddExternalVelocity`, for the angular accumulator. |
| InteractableItem.AddExternalVelocities | NewtonVR/NVRInteractableItem.cs:273-286 | A non-zero accumulator halves the gap between velocity and accumulator, then is cleared. A zero one leaves velocity and accumulator alone. This applies to each of the two channels, and afterwards no push is pending on either. |
| InteractableItem.PhysicsStep | NewtonVR/NVRInteractableItem.cs:91-104 | The history records the step's velocities exactly when the item is attached and was not dropped. The step itself leaves pickups, events, drag and materials untouched; the end of interaction a drop causes is not part of it. |
| ItemProperties.SingleHandRoundTrip | NewtonVR/NVRInteractableItem.cs:312-376 | One hand grabbing and releasing an unheld item restores drag, angular drag, materials and velocities. It leaves no pickup and raises one begin and one end event. |
| ItemProperties.SecondHandKeepsHeldDamping | NewtonVR/NVRInteractableItem.cs:316-319 | After two hands grab and both let go, in either order, the item keeps drag 0 and angular drag 0.05 and its listed colliders have no material. Only one end event is raised, when the last hand leaves. |
| ItemProperties.NullReleaseEndsOnce | NewtonVR/NVRInteractableItem.cs:341-354 | Releasing with a null hand empties the pickup map and raises exactly one end event. |
| ItemProperties.RepeatedReleaseFiresAgain | NewtonVR/NVRInteractableItem.cs:361-375 | Releasing an item that nobody holds raises the end event again and rewrites the same drag. |
| ItemProperties.ReleaseBeforeAnyGrab | NewtonVR/NVRInteractableItem.cs:37-38 | Releasing a fresh item that was never grabbed sets its drag and angular drag to −1. |
| ItemProperties.TossAfterOneStep | NewtonVR/NVRInteractableItem.cs:414-430 | Grab, one held physics step, then release: the item leaves with exactly that step's velocities. A push pending during the step moves the rigid body only after the sample is taken, so it does not reach the release velocity. |
| ItemProperties.PushThenStepHalvesGap | NewtonVR/NVRInteractableItem.cs:273-298 | One push into an empty accumulator moves the velocity to the midpoint at the next physics step and clears the accumulator. |
| ItemProperties.TwoPushesBlend | NewtonVR/NVRInteractableItem.cs:288-298 | Two pushes in one step leave the accumulator at their midpoint. |
| Tracking.NearestInteractionPoint | NewtonVR/NVRInteractableItem.cs:211-231 | If some distance is below 100, the index is the first of least distance. Otherwise it is 0. |
| Tracking.FirstNearestUnique | NewtonVR/NVRInteractableItem.cs:218-227 | At most one index is the first nearest. |
| Tracking.NormalizeAngle | NewtonVR/NVRInteractableItem.cs:246-247 | The angle loses 360 exactly when it is above 180, and is kept otherwise. For inputs in [0, 360] the result lies in (−180, 180]. |
| Tracking.NormalizeAngleIsTheSignedRepresentative | NewtonVR/NVRInteractableItem.cs:246-247 | For inputs in [0, 360], the result is the only value in (−180, 180] that is the angle or the angle less a full turn. |
| Tracking.ThreeQuarterTurnIsMinusQuarter | NewtonVR/NVRInteractableItem.cs:246-247 | 270 becomes −90, and 180 stays 180. |

## Behaviour of the code worth knowing

- `NVRHand`'s Hold-style visibility in physical-hands mode keys "grip over nothing" on the hold button only (`HoldButtonPressed`), even when two hold buttons are configured. It keys "grip while holding" on either button's down-edge.
- `NVRInteractableItem`'s interaction-point branch is guarded by `m_interactionPoints.Count > 0 || targetHandPosition == null`. A `Vector3` is a value type and is never null, so only the count decides the branch.
- `NVRHand.PickupClosest` starts from `float.MaxValue`. A key at that distance or beyond is never chosen, so "a candidate exists" means "a live key closer than the largest float".
- An item that is released before it was ever grabbed (for example by `ResetInteractable`) writes its initial saved drag, −1, into the rigid body (`ItemProperties.ReleaseBeforeAnyGrab`).

## Left out

- Quaternion and float control maths are not modelled. This covers `GetTargetValues` and its rotation averaging, `ToAngleAxis`, `Quaternion.Inverse`, the velocity-magic and timestep scaling, and `Vector3.MoveTowards` clamping. The item's control step is a parameter of `InteractableItem.PhysicsStep`: the rigid body's velocities after it.
- Float rounding and NaN checks are not modelled. Vectors are exact reals.
- `GetVelocityEstimation`, `GetAngularVelocityEstimation` and `GetRotationDelta`: the ring keeps positions and timesteps but not rotations.
- The mobile touchpad rotation, the Gear input device, `UseRemoteInput`, `PreInitialize`, `Initialize` and the render-model set-up are engine glue or platform code. Only the state part of initialisation (Ghost, Idle) is kept, in `Hand.Update`.
- `SetVisibility`'s renderer, collider and `PhysicalController` side effects act only on engine objects. So do the `PhysicalController.On` call in `BeginInteraction` and the `PhysicalController.Off` call in `EndInteraction`. Only the level it sets is kept, and `Hand.SetVisibility` is a helper of `Hand.UpdateVisibilityAndColliders`.
- A destroyed interactable still held by the hand is not modelled. Unity's null comparison would make `IsInteracting` false for it (NVRHand.cs lines 168, 487, 492, 534, 546, 555, 571, 614 and 753). The model assumes such an interactable is deregistered (`Hand.DeregisterInteractable`) before the hand's next frame. The destroyed set is consulted only by the pickup scan.
- The hand does not model the exception the item's `PickupTransforms.Add` throws when a hand begins an item it already holds. One way this happens: a script begins an item on an Idle Toggle hand, and a later grab edge makes the hand pick the same item up again. In the source that exception aborts the rest of the frame. The hand logs `OnBeginInteraction` regardless. The item side models the throw as `InteractableItem.Completion.DuplicateKey`.
- Hand.UpdateVisibilityAndColliders: its contract states the lock policy and the cases without physical hands. The level and state each physical-hands branch produces are stated by the `HandProperties` lemmas `HoldGripOverNothingShowsHand`, `HoldGripWhileHolding`, `HoldReleasedHandGhosts`, `HoldingWithoutGrabEdgeKeepsHand`, `ToggleIdleLevel` and `ToggleOnLevels`.
- Scripts writing `WasHovering` directly (NVRHand.cs:159-163) are not host calls of `HandHost`. The alternation of is-hovering notifications holds only for runs without such writes.
- `ForceGhost` and `SetInteractable` are one-line engine helpers outside the state machine.
- `LongHapticPulse` is a coroutine over wall-clock time.
- Button state refresh (`UpdateButtonStates`, `NVRButtonInputs`) is not part of this model. Each frame's button flags are an input.
- InteractableItem.PhysicsStep: a drop is detected, and the interaction ended, inside the base class's `CheckForDrop` (NVRInteractableItem.cs:95), which is not part of this model. The step takes the outcome as a bool, so its frame says nothing about the drop's effect; a dropped step is that end of interaction followed by `PhysicsStep` with `dropped` set.
- The `NVRInteractable` base class is not part of this model. `CanAttach`, `IsAttached` and `CheckForDrop` are parameters. `InteractingUpdate`, `HoveringUpdate` and the base `BeginInteraction`/`EndInteraction` are logged calls.
- UnityEvent listeners are not run; their invocations are logged.
- The pickup transform is created as a child of the hand and then follows it. The model records only the pose captured at grab time.
- `UpdateColliders` and `HoveringUpdate`/`UseButtonDown`/`UseButtonUp` on the item re-cache colliders added later or only invoke events; they are outside the begin/end bookkeeping.
- Hand.HoldRules: its contract states only what Hold style leaves untouched. The transitions themselves are stated by the `HandProperties` lemmas about `UpdateInteractions`.
- Hand.ToggleRules: its contract states only what Toggle style leaves untouched. The transitions are stated by `HandProperties.ToggleFromIdle`, `ToggleOffFromToggledOn` and `ToggleIgnoresFramesWithoutGrab`.
- Hand.StyleRules: like `Hand.HoldRules` and `Hand.ToggleRules`, its contract states only what the style rules leave untouched.
- Materials.DisablePhysicalMaterials: states the null-array case only; the effect on a present array is the contract of `Materials.DisableAll`.
- Materials.EnablePhysicalMaterials: states the null-array case only; the effect on a present array is the contract of `Materials.EnableAll`.
- VelocityHistory.Mean: its contract states only when a mean exists. The value is stated by `VelocityHistory.GetMeanVector` and `MeanOfOneFilledSlot`.

=== FILE: hand.dfy ===
/** The hand interaction state machine: hover bookkeeping, closest-candidate
    pickup, the per-frame transition rules of the three interaction styles,
    edge-triggered hover notification, the visibility policy and its lock,
    the haptic duration guard and the pose ring index.

    Every operation is a pure step from one hand record to the next. Events
    the hand raises and calls it makes into the interactable it holds are
    appended to the record's `events` log, in the order the hand issues them. */
module Hand {
  import opened Ids
  import opened Optional
  import opened Vectors
  import HoverSet
  import PoseRing

  datatype InteractionStyle = Hold | Toggle | ByScript

  datatype HandState =
    | Uninitialized
    | Idle
    | GripDownNotInteracting
    | GripDownInteracting
    | GripToggleOnNotInteracting
    | GripToggleOnInteracting
    | GripToggleOff

  datatype VisibilityLevel = Invisible | Ghost | Visible

  /** The logical buttons the hand names. */
  datatype Button = Grip | Trigger | Touchpad | A | B | X | Y | ApplicationMenu

  /** An unsigned 16-bit haptic duration in microseconds. */
  type UInt16 = x: int | 0 <= x < 0x1_0000

  /** Pulses of this many microseconds or more are refused. */
  const HapticLimit: int := 3000

  /** The largest single-precision float, the starting "closest distance". */
  const FloatMax: real := 340282346638528859811704183484516925440.0

  /** Player-wide settings the hand reads. */
  datatype Config = Config(
    useTwoButtonsToHold: bool,
    physicalHands: bool,
    invisibleOnInteraction: bool,
    vibrateOnHover: bool)

  /** This frame's edge and level flags of the hold button and the second
      hold button. */
  datatype Buttons = Buttons(
    holdDown: bool, holdUp: bool, holdPressed: bool,
    secondDown: bool, secondUp: bool, secondPressed: bool)

  /** What the hand learns from the engine and from the interactables this
      frame: the enumeration order of the hover dictionary, the interactables
      that have been destroyed (they compare equal to null), the distance from
      the hand to each interactable, each interactable's `CanAttach` flag and
      the frame time. */
  datatype Env = Env(
    order: seq<InteractableId>,
    destroyed: set<InteractableId>,
    distance: InteractableId -> real,
    canAttach: InteractableId -> bool,
    now: real)

  datatype Event =
    // the hand's own notifications
    | OnBeginInteractionCustomHands(item: InteractableId)
    | OnBeginInteraction(item: InteractableId)
    | OnEndInteractionCustomHands(item: InteractableId)
    | OnEndInteraction(item: InteractableId)
    | OnChangeIsHovering(hovering: bool)
    | OnChangeIsGrabbing(grabbing: bool)
    | OnUnfreezeHand
    // calls into an interactable
    | CallBeginInteraction(item: InteractableId)
    | CallEndInteraction(item: InteractableId)
    | CallInteractingUpdate(item: InteractableId)
    | CallHoveringUpdate(item: InteractableId, forTime: real)
    // the input device
    | DeviceHapticPulse(duration: UInt16, button: Button)
    | HapticTooLongWarning

  datatype Hand = Hand(
    style: InteractionStyle,
    state: HandState,
    visibility: VisibilityLevel,
    visibilityLocked: bool,
    hover: HoverSet.Hover,
    interacting: Option<InteractableId>,
    wasHovering: bool,
    ableToInteract: bool,
    hasDevice: bool,
    ring: PoseRing.Ring,
    events: seq<Event>)

  /** `order` lists exactly the keys of the hover set. */
  predicate Enumerates(order: seq<InteractableId>, hover: HoverSet.Hover) {
    && (forall k :: k in order ==> k in hover)
    && (forall k :: k in hover ==> k in order)
  }

  /** No interactable occurs twice in `order`, as in any enumeration of a
      dictionary's keys. */
  predicate NoRepeats(order: seq<InteractableId>) {
    forall i, j :: 0 <= i < j < |order| ==> order[i] != order[j]
  }

  /** `after` is `before` with events appended, none of them an
      is-hovering notification. */
  predicate QuietExtension(before: seq<Event>, after: seq<Event>) {
    && |before| <= |after|
    && after[..|before|] == before
    && forall e :: e in after[|before|..] ==> !e.OnChangeIsHovering?
  }

  lemma QuietExtensionTransitive(a: seq<Event>, b: seq<Event>, c: seq<Event>)
    requires QuietExtension(a, b) && QuietExtension(b, c)
    ensures QuietExtension(a, c)
  {
    assert c[..|a|] == b[..|a|];
    forall e | e in c[|a|..] ensures !e.OnChangeIsHovering? {
      var k :| 0 <= k < |c[|a|..]| && c[|a|..][k] == e;
      if |a| + k < |b| {
        assert e == b[|a|..][k];
      } else {
        assert e == c[|b|..][|a| + k - |b|];
      }
    }
  }

  /** Appending events none of which is an is-hovering notification is a
      quiet extension. */
  lemma AppendQuiet(before: seq<Event>, tail: seq<Event>)
    requires forall k :: 0 <= k < |tail| ==> !tail[k].OnChangeIsHovering?
    ensures QuietExtension(before, before + tail)
  {
    assert (before + tail)[|before|..] == tail;
  }

  predicate Live(env: Env, k: InteractableId) {
    k !in env.destroyed
  }

  // ---------------------------------------------------------------------
  // Hover set callbacks

  /** The trigger enter and trigger stay callbacks: `owner` is the
      interactable the collider resolves to (None when it resolves to none),
      `enabled` that interactable's enabled flag. */
  function OnTriggerEnterOrStay(h: Hand, owner: Option<InteractableId>, enabled: bool,
                                c: ColliderId, now: real): (r: Hand)
    ensures owner.None? || !enabled ==> r == h
    ensures owner.Some? && enabled ==>
      r == h.(hover := HoverSet.AddOverlap(h.hover, owner.value, c, now))
    ensures HoverSet.WellFormed(h.hover) ==> HoverSet.WellFormed(r.hover)
  {
    if owner.None? || !enabled then h
    else h.(hover := HoverSet.AddOverlap(h.hover, owner.value, c, now))
  }

  /** The trigger exit callback; the enabled flag is not consulted. */
  function OnTriggerExit(h: Hand, owner: Option<InteractableId>, c: ColliderId): (r: Hand)
    ensures owner.None? ==> r == h
    ensures owner.Some? ==> r == h.(hover := HoverSet.RemoveOverlap(h.hover, owner.value, c))
    ensures HoverSet.WellFormed(h.hover) ==> HoverSet.WellFormed(r.hover)
  {
    if owner.None? then h
    else h.(hover := HoverSet.RemoveOverlap(h.hover, owner.value, c))
  }

  /** Forgets an interactable that is going away: it is no longer held nor
      hovered. Nothing is notified and the interactable is not called. */
  function DeregisterInteractable(h: Hand, i: InteractableId): (r: Hand)
    ensures r.interacting == (if h.interacting == Some(i) then None else h.interacting)
    ensures i !in r.hover
    ensures r.hover.Keys == h.hover.Keys - {i}
    ensures r.events == h.events
    ensures r.state == h.state && r.visibility == h.visibility
    ensures HoverSet.WellFormed(h.hover) ==> HoverSet.WellFormed(r.hover)
  {
    h.(interacting := if h.interacting == Some(i) then None else h.interacting,
       hover := HoverSet.Forget(h.hover, i))
  }

  // ---------------------------------------------------------------------
  // Beginning and ending an interaction

  /** Grabs `i` when it can be attached: raises the custom-hands event, holds
      `i`, calls its BeginInteraction, raises OnBeginInteraction. */
  function BeginInteraction(h: Hand, i: InteractableId, env: Env): (r: Hand)
    ensures !env.canAttach(i) ==> r == h
    ensures env.canAttach(i) ==> r.interacting == Some(i)
    ensures env.canAttach(i) ==>
      r.events == h.events + [OnBeginInteractionCustomHands(i), CallBeginInteraction(i), OnBeginInteraction(i)]
    ensures r == h.(interacting := r.interacting, events := r.events)
    ensures r.hover == h.hover && r.state == h.state && r.visibility == h.visibility
    ensures r.visibilityLocked == h.visibilityLocked && r.wasHovering == h.wasHovering
    ensures r.ableToInteract == h.ableToInteract && r.style == h.style && r.ring == h.ring
    ensures QuietExtension(h.events, r.events)
  {
    if env.canAttach(i) then
      h.(interacting := Some(i),
         events := h.events + [OnBeginInteractionCustomHands(i), CallBeginInteraction(i), OnBeginInteraction(i)])
    else h
  }

  /** Releases whatever is held (calling its EndInteraction exactly once) and,
      when `item` is given, removes it from the hover set. In Toggle style the
      state returns to Idle. */
  function EndInteraction(h: Hand, item: Option<InteractableId>): (r: Hand)
    ensures r.interacting.None?
    ensures item.Some? ==> item.value !in r.hover
    ensures r.hover == (if item.Some? then HoverSet.Forget(h.hover, item.value) else h.hover)
    ensures h.interacting.None? ==> r.events == h.events
    ensures h.interacting.Some? ==>
      var c := h.interacting.value;
      r.events == h.events + [OnEndInteractionCustomHands(c), CallEndInteraction(c), OnEndInteraction(c)]
    ensures h.style == Toggle ==> r.state == Idle
    ensures h.style != Toggle ==> r.state == h.state
    ensures r == h.(interacting := r.interacting, events := r.events, hover := r.hover, state := r.state)
    ensures r.visibility == h.visibility && r.visibilityLocked == h.visibilityLocked
    ensures r.wasHovering == h.wasHovering && r.style == h.style
    ensures r.ableToInteract == h.ableToInteract && r.ring == h.ring
    ensures QuietExtension(h.events, r.events)
    ensures HoverSet.WellFormed(h.hover) ==> HoverSet.WellFormed(r.hover)
  {
    var h1 := if item.Some? then h.(hover := HoverSet.Forget(h.hover, item.value)) else h;
    var h2 :=
      if h1.interacting.Some? then
        var c := h1.interacting.value;
        h1.(interacting := None,
            events := h1.events + [OnEndInteractionCustomHands(c), CallEndInteraction(c), OnEndInteraction(c)])
      else h1;
    if h2.style == Toggle then h2.(state := Idle) else h2
  }

  // ---------------------------------------------------------------------
  // Closest-candidate pickup

  /** Index `p` of `order` is the first live candidate of least distance. */
  predicate FirstClosest(order: seq<InteractableId>, env: Env, p: int) {
    && 0 <= p < |order|
    && Live(env, order[p])
    && env.distance(order[p]) < FloatMax
    && (forall q :: 0 <= q < p && Live(env, order[q]) ==> env.distance(order[q]) > env.distance(order[p]))
    && (forall q :: 0 <= q < |order| && Live(env, order[q]) ==> env.distance(order[p]) <= env.distance(order[q]))
  }

  /** Some live key lies closer than the largest float. */
  predicate HasCandidate(order: seq<InteractableId>, env: Env) {
    exists q :: 0 <= q < |order| && Live(env, order[q]) && env.distance(order[q]) < FloatMax
  }

  /** NVRHand's PickupClosest loop: a key replaces the current closest only when it is
      live and strictly nearer. Returns the closest and its distance. */
  function Scan(keys: seq<InteractableId>, env: Env, closest: Option<InteractableId>,
                closestDistance: real): (Option<InteractableId>, real)
    decreases |keys|
  {
    if |keys| == 0 then (closest, closestDistance)
    else
      var k := keys[0];
      if Live(env, k) && env.distance(k) < closestDistance then
        Scan(keys[1..], env, Some(k), env.distance(k))
      else
        Scan(keys[1..], env, closest, closestDistance)
  }

  /** What the scan yields: it keeps the running best unless a strictly
      nearer live key appears, and the key it ends on is the first of least
      distance among the scanned keys. */
  lemma {:induction false} ScanFindsFirstClosest(keys: seq<InteractableId>, env: Env,
                                                  c: Option<InteractableId>, cd: real)
    ensures var (rc, rd) := Scan(keys, env, c, cd);
      && rd <= cd
      && (forall q :: 0 <= q < |keys| && Live(env, keys[q]) ==> rd <= env.distance(keys[q]))
      && ((rc == c && rd == cd) ||
          exists p :: 0 <= p < |keys| && rc == Some(keys[p]) && Live(env, keys[p])
                      && env.distance(keys[p]) == rd && rd < cd
                      && forall q :: 0 <= q < p && Live(env, keys[q]) ==> env.distance(keys[q]) > rd)
    decreases |keys|
  {
    if |keys| > 0 {
      var k := keys[0];
      var tail := keys[1..];
      var better := Live(env, k) && env.distance(k) < cd;
      var c' := if better then Some(k) else c;
      var cd' := if better then env.distance(k) else cd;
      ScanFindsFirstClosest(tail, env, c', cd');
      var (rc, rd) := Scan(keys, env, c, cd);
      assert (rc, rd) == Scan(tail, env, c', cd');
      forall q | 0 <= q < |keys| && Live(env, keys[q])
        ensures rd <= env.distance(keys[q])
      {
        if q > 0 { assert keys[q] == tail[q - 1]; }
      }
      if rc == c' && rd == cd' {
        if better {
          assert rc == Some(keys[0]) && env.distance(keys[0]) == rd;
        }
      } else {
        var p :| 0 <= p < |tail| && rc == Some(tail[p]) && Live(env, tail[p])
                 && env.distance(tail[p]) == rd && rd < cd'
                 && forall q :: 0 <= q < p && Live(env, tail[q]) ==> env.distance(tail[q]) > rd;
        assert keys[p + 1] == tail[p];
        forall q | 0 <= q < p + 1 && Live(env, keys[q])
          ensures env.distance(keys[q]) > rd
        {
          if q > 0 { assert keys[q] == tail[q - 1]; }
          else if !better { assert env.distance(k) >= cd; }
        }
      }
    }
  }

  /** The candidate the pickup scan chooses over the enumeration order. */
  function ClosestCandidate(env: Env): (r: Option<InteractableId>)
    ensures r.None? <==> !HasCandidate(env.order, env)
    ensures r.Some? ==> exists p :: FirstClosest(env.order, env, p) && env.order[p] == r.value
  {
    ScanFindsFirstClosest(env.order, env, None, FloatMax);
    Scan(env.order, env, None, FloatMax).0
  }

  /** Begins interaction with the first hover key of least distance, if any;
      returns whether a candidate was found. */
  function PickupClosest(h: Hand, env: Env): (r: (Hand, bool))
    ensures r.1 <==> HasCandidate(env.order, env)
    ensures Enumerates(env.order, h.hover) ==>
      (r.1 <==> exists k :: k in h.hover && Live(env, k) && env.distance(k) < FloatMax)
    ensures !r.1 ==> r.0 == h
    ensures r.1 ==> exists p ::
      && FirstClosest(env.order, env, p)
      && (env.canAttach(env.order[p]) ==> r.0.interacting == Some(env.order[p]))
      && (!env.canAttach(env.order[p]) ==> r.0 == h)
    ensures r.0 == h.(interacting := r.0.interacting, events := r.0.events)
    ensures r.0.hover == h.hover && r.0.state == h.state && r.0.visibilityLocked == h.visibilityLocked
    ensures r.0.visibility == h.visibility && r.0.wasHovering == h.wasHovering
    ensures r.0.ableToInteract == h.ableToInteract && r.0.style == h.style && r.0.ring == h.ring
    ensures QuietExtension(h.events, r.0.events)
  {
    var closest := ClosestCandidate(env);
    if closest.Some? then
      (BeginInteraction(h, closest.value, env), true)
    else
      (h, false)
  }

  // ---------------------------------------------------------------------
  // Per-frame interaction rules

  /** The release condition: with two hold buttons, one button's up-edge
      while the other is not pressed; otherwise the hold button's up-edge. */
  predicate ReleaseEdge(cfg: Config, b: Buttons) {
    var firstUp := b.holdUp && !b.secondPressed;
    var secondUp := b.secondUp && !b.holdPressed;
    (!cfg.useTwoButtonsToHold && b.holdUp) || (cfg.useTwoButtonsToHold && (firstUp || secondUp))
  }

  /** The grab condition: a down-edge of the hold button, or of either hold
      button when two are used. */
  predicate GrabEdge(cfg: Config, b: Buttons) {
    (!cfg.useTwoButtonsToHold && b.holdDown) || (cfg.useTwoButtonsToHold && (b.holdDown || b.secondDown))
  }

  /** Hold style: the release edge unlocks visibility and notifies; the grab
      edge notifies and picks up the closest candidate when nothing is held;
      otherwise the release edge ends the interaction. */
  function HoldRules(h: Hand, cfg: Config, b: Buttons, env: Env): (r: Hand)
    ensures r.hover == h.hover && r.wasHovering == h.wasHovering && r.style == h.style
    ensures r.visibility == h.visibility && r.ableToInteract == h.ableToInteract && r.ring == h.ring
    ensures QuietExtension(h.events, r.events)
  {
    var h1 :=
      if ReleaseEdge(cfg, b) then
        h.(visibilityLocked := false, events := h.events + [OnChangeIsGrabbing(false), OnUnfreezeHand])
      else h;
    assert QuietExtension(h.events, h1.events);
    if GrabEdge(cfg, b) then
      var h2 := h1.(events := h1.events + [OnChangeIsGrabbing(true)]);
      assert QuietExtension(h1.events, h2.events);
      QuietExtensionTransitive(h.events, h1.events, h2.events);
      if h2.interacting.None? then
        var r := PickupClosest(h2, env).0;
        QuietExtensionTransitive(h.events, h2.events, r.events);
        r
      else h2
    else if ReleaseEdge(cfg, b) && h1.interacting.Some? then
      var r := EndInteraction(h1, None);
      QuietExtensionTransitive(h.events, h1.events, r.events);
      r
    else h1
  }

  /** Toggle style: a grab edge from Idle picks up and toggles on; a grab edge
      from either toggled-on state returns to Idle, clears the visibility lock
      and (when something is held) ends the interaction. */
  function ToggleRules(h: Hand, cfg: Config, b: Buttons, env: Env): (r: Hand)
    ensures r.hover == h.hover && r.wasHovering == h.wasHovering && r.style == h.style
    ensures r.visibility == h.visibility && r.ableToInteract == h.ableToInteract && r.ring == h.ring
    ensures QuietExtension(h.events, r.events)
  {
    if !GrabEdge(cfg, b) then h
    else if h.state == Idle then
      var h1 := PickupClosest(h, env).0;
      if h1.interacting.Some? then h1.(state := GripToggleOnInteracting)
      else if cfg.physicalHands then h1.(state := GripToggleOnNotInteracting)
      else h1
    else if h.state == GripToggleOnInteracting then
      EndInteraction(h.(state := Idle, visibilityLocked := false), None)
    else if h.state == GripToggleOnNotInteracting then
      h.(state := Idle, visibilityLocked := false)
    else h
  }

  /** What a hand that may not interact still does: raise the release
      notification (Hold style only) and the grab notification. */
  function GrabNotifications(h: Hand, cfg: Config, b: Buttons): (r: Hand)
    ensures r == h.(events := r.events)
    ensures QuietExtension(h.events, r.events)
    ensures r.events == h.events
           + (if h.style == Hold && ReleaseEdge(cfg, b) then [OnChangeIsGrabbing(false)] else [])
           + (if GrabEdge(cfg, b) then [OnChangeIsGrabbing(true)] else [])
  {
    var ev1 := if h.style == Hold && ReleaseEdge(cfg, b) then [OnChangeIsGrabbing(false)] else [];
    var ev2 := if GrabEdge(cfg, b) then [OnChangeIsGrabbing(true)] else [];
    var tail := ev1 + ev2;
    assert h.events + ev1 + ev2 == h.events + tail;
    AppendQuiet(h.events, tail);
    h.(events := h.events + tail)
  }

  /** The rules of the hand's interaction style; ByScript has none. */
  function StyleRules(h: Hand, cfg: Config, b: Buttons, env: Env): (r: Hand)
    ensures r.hover == h.hover && r.wasHovering == h.wasHovering && r.style == h.style
    ensures r.visibility == h.visibility && r.ableToInteract == h.ableToInteract && r.ring == h.ring
    ensures QuietExtension(h.events, r.events)
    ensures h.style == ByScript ==> r == h
  {
    match h.style
    case Hold => HoldRules(h, cfg, b, env)
    case Toggle => ToggleRules(h, cfg, b, env)
    case ByScript => h
  }

  /** The interaction step of a frame. When interaction is disabled only the
      grab notifications fire. Otherwise the style's rules run and the held
      interactable, if any, gets its per-frame update call. */
  function UpdateInteractions(h: Hand, cfg: Config, b: Buttons, env: Env): (r: Hand)
    ensures r.hover == h.hover && r.wasHovering == h.wasHovering && r.style == h.style
    ensures r.visibility == h.visibility && r.ring == h.ring
    ensures QuietExtension(h.events, r.events)
    ensures !h.ableToInteract ==>
      && r == h.(events := r.events)
      && r.events == h.events
           + (if h.style == Hold && ReleaseEdge(cfg, b) then [OnChangeIsGrabbing(false)] else [])
           + (if GrabEdge(cfg, b) then [OnChangeIsGrabbing(true)] else [])
  {
    if !h.ableToInteract then GrabNotifications(h, cfg, b)
    else
      var h1 := StyleRules(h, cfg, b, env);
      if h1.interacting.Some? then
        var r := h1.(events := h1.events + [CallInteractingUpdate(h1.interacting.value)]);
        assert QuietExtension(h1.events, r.events);
        QuietExtensionTransitive(h.events, h1.events, r.events);
        r
      else h1
  }

  // ---------------------------------------------------------------------
  // Hover notifications

  /** The hovering-update calls made while Idle: one per hovered key with a
      collider, in enumeration order, with the time since its earliest
      overlap. */
  function HoverUpdates(order: seq<InteractableId>, hover: HoverSet.Hover, now: real): (r: seq<Event>)
    // every call goes to a listed key that has a collider, and carries the
    // time elapsed since that key's earliest overlap
    ensures forall e :: e in r ==>
      && e.CallHoveringUpdate? && e.item in order && e.item in hover && |hover[e.item]| > 0
      && e.forTime == now - HoverSet.EarliestOverlap(hover[e.item])
    // every listed key that has a collider gets its call
    ensures forall k :: k in order && k in hover && |hover[k]| > 0 ==>
      CallHoveringUpdate(k, now - HoverSet.EarliestOverlap(hover[k])) in r
    // and, when no key is listed twice, no key gets two
    ensures NoRepeats(order) ==> forall i, j :: 0 <= i < j < |r| ==> r[i] != r[j]
    decreases |order|
  {
    if |order| == 0 then []
    else
      var k := order[0];
      var first :=
        if k in hover && |hover[k]| > 0 then [CallHoveringUpdate(k, now - HoverSet.EarliestOverlap(hover[k]))]
        else [];
      var rest := HoverUpdates(order[1..], hover, now);
      assert forall k' :: k' in order <==> k' == k || k' in order[1..];
      assert NoRepeats(order) ==> NoRepeats(order[1..]) && k !in order[1..] by {
        if NoRepeats(order) {
          forall i, j | 0 <= i < j < |order[1..]| ensures order[1..][i] != order[1..][j] {
            assert order[1..][i] == order[i + 1] && order[1..][j] == order[j + 1];
          }
        }
      }
      first + rest
  }

  /** The hover step of a frame: hovering-update calls while Idle, then the
      is-hovering notification, raised only when `wasHovering` flips. */
  function UpdateHovering(h: Hand, cfg: Config, env: Env): (r: Hand)
    ensures r == h.(wasHovering := r.wasHovering, events := r.events)
    ensures r.wasHovering != h.wasHovering ==>
      r.events == h.events + (if h.state == Idle then HoverUpdates(env.order, h.hover, env.now) else [])
                 + [OnChangeIsHovering(r.wasHovering)]
    ensures r.wasHovering == h.wasHovering ==>
      r.events == h.events + (if h.state == Idle then HoverUpdates(env.order, h.hover, env.now) else [])
    // it turns on only while hovering, not holding, with a device and vibration enabled
    ensures !h.wasHovering && r.wasHovering <==>
      !h.wasHovering && h.hasDevice && h.interacting.None? && HoverSet.IsHovering(h.hover) && cfg.vibrateOnHover
    // it turns off only once nothing is hovered
    ensures h.wasHovering && !r.wasHovering <==> h.wasHovering && !HoverSet.IsHovering(h.hover)
  {
    var updates := if h.state == Idle then HoverUpdates(env.order, h.hover, env.now) else [];
    var h1 := h.(events := h.events + updates);
    var hovering := HoverSet.IsHovering(h.hover);
    if h.hasDevice && h.interacting.None? && hovering then
      if cfg.vibrateOnHover && !h.wasHovering then
        h1.(wasHovering := true, events := h1.events + [OnChangeIsHovering(true)])
      else h1
    else if !hovering && h.wasHovering then
      h1.(wasHovering := false, events := h1.events + [OnChangeIsHovering(false)])
    else h1
  }

  // ---------------------------------------------------------------------
  // Visibility

  /** The state part of SetVisibility: the current level becomes `v`. The
      lock is not consulted here; callers consult it. */
  function SetVisibility(h: Hand, v: VisibilityLevel): (r: Hand)
    ensures r.visibility == v
    ensures r == h.(visibility := v)
  {
    h.(visibility := v)
  }

  /** The visibility step of a frame. With physical hands, Hold style shows the
      hand while the grip is held over nothing, hides or ghosts it once
      something is held, and ghosts it back when released; Toggle style ghosts
      it when Idle or holding and shows it when toggled on over nothing. Every
      such change takes the lock, and none happens while the lock is held,
      except that an Idle Toggle hand clears the lock. Without physical hands
      the level only follows "is holding" when invisibility on interaction is
      configured. */
  function UpdateVisibilityAndColliders(h: Hand, cfg: Config, b: Buttons): (r: Hand)
    ensures r == h.(visibility := r.visibility, visibilityLocked := r.visibilityLocked, state := r.state)
    // with physical hands the level never changes while the lock is held,
    // and a Toggle hand's state is never changed here
    ensures cfg.physicalHands && h.visibilityLocked ==> r.visibility == h.visibility
    ensures cfg.physicalHands && h.style == Toggle ==> r.state == h.state
    ensures !cfg.physicalHands ==> r.state == h.state && r.visibilityLocked == h.visibilityLocked
    ensures !cfg.physicalHands && cfg.invisibleOnInteraction ==>
      r.visibility == (if h.interacting.Some? then Invisible else Ghost)
    ensures !cfg.physicalHands && !cfg.invisibleOnInteraction ==> r == h
    ensures cfg.physicalHands && h.style == ByScript ==> r == h
  {
    if cfg.physicalHands then
      match h.style
      case Hold =>
        if b.holdPressed && h.interacting.None? then
          if h.state != GripDownNotInteracting && !h.visibilityLocked then
            SetVisibility(h.(visibilityLocked := true), Visible).(state := GripDownNotInteracting)
          else h
        else if (b.holdDown || b.secondDown) && h.interacting.Some? then
          if h.state != GripDownInteracting && !h.visibilityLocked then
            SetVisibility(h.(visibilityLocked := true), if cfg.invisibleOnInteraction then Invisible else Ghost)
              .(state := GripDownInteracting)
          else h
        else if h.interacting.None? then
          if h.state != Idle && !h.visibilityLocked then
            SetVisibility(h, Ghost).(state := Idle)
          else h
        else h
      case Toggle =>
        if h.state == Idle then
          if !h.visibilityLocked && h.visibility != Ghost then SetVisibility(h, Ghost)
          else h.(visibilityLocked := false)
        else if h.state == GripToggleOnInteracting then
          if !h.visibilityLocked then SetVisibility(h.(visibilityLocked := true), Ghost) else h
        else if h.state == GripToggleOnNotInteracting then
          if !h.visibilityLocked then SetVisibility(h.(visibilityLocked := true), Visible) else h
        else h
      case ByScript => h
    else if cfg.invisibleOnInteraction then
      SetVisibility(h, if h.interacting.Some? then Invisible else Ghost)
    else h
  }

  // ---------------------------------------------------------------------
  // The two host phases

  /** One frame's inputs. */
  datatype Frame = Frame(deviceReady: bool, buttons: Buttons, env: Env)

  /** The frame's enumeration order is an enumeration of the hand's hover
      dictionary: every key exactly once. */
  predicate FrameFits(h: Hand, f: Frame) {
    Enumerates(f.env.order, h.hover) && NoRepeats(f.env.order)
  }

  /** The per-frame phase. An uninitialised hand waits for a ready device and
      then initialises (state part: Ghost visibility, Idle state); otherwise
      the interaction, hover and visibility steps run in that order. Button
      refresh is outside the model: `buttons` are this frame's flags. */
  function Update(h: Hand, cfg: Config, f: Frame): (r: Hand)
    requires FrameFits(h, f)
    ensures h.state == Uninitialized && !(h.hasDevice && f.deviceReady) ==> r == h
    ensures h.state == Uninitialized && h.hasDevice && f.deviceReady ==>
      r == h.(visibility := Ghost, state := Idle)
    ensures r.hover == h.hover && r.style == h.style && r.ring == h.ring
  {
    if h.state == Uninitialized then
      if !h.hasDevice || !f.deviceReady then h
      else h.(visibility := Ghost, state := Idle)
    else
      var h1 := UpdateInteractions(h, cfg, f.buttons, f.env);
      var h2 := UpdateHovering(h1, cfg, f.env);
      UpdateVisibilityAndColliders(h2, cfg, f.buttons)
  }

  /** The per-physics-step phase: once initialised, records the hand's
      position and the timestep in the pose ring. */
  function FixedUpdate(h: Hand, position: Vec3, dt: real): (r: Hand)
    requires PoseRing.Valid(h.ring)
    ensures PoseRing.Valid(r.ring)
    ensures h.state == Uninitialized ==> r == h
    ensures h.state != Uninitialized ==>
      && r == h.(ring := r.ring)
      && r.ring.index == (h.ring.index + 1) % PoseRing.EstimationSamples
      && r.ring.positions[h.ring.index] == position
  {
    if h.state == Uninitialized then h
    else h.(ring := PoseRing.Push(h.ring, position, dt))
  }

  /** The position change between the two most recent physics steps: the
      slot written one step before the index minus the slot written two
      steps before it. */
  function GetPositionDelta(h: Hand): (r: Vec3)
    requires PoseRing.Valid(h.ring)
    ensures r == Sub(h.ring.positions[PoseRing.Behind(h.ring, 1)], h.ring.positions[PoseRing.Behind(h.ring, 2)])
  {
    PoseRing.PositionDelta(h.ring)
  }

  // ---------------------------------------------------------------------
  // Haptics

  /** Forwards a pulse to the device when there is one and the duration is
      below the limit; a too-long pulse only logs a warning. */
  function TriggerHapticPulse(h: Hand, duration: UInt16 := 500, button: Button := Grip): (r: Hand)
    ensures r == h.(events := r.events)
    ensures !h.hasDevice ==> r.events == h.events
    ensures h.hasDevice && duration < HapticLimit ==>
      r.events == h.events + [DeviceHapticPulse(duration, button)]
    ensures h.hasDevice && duration >= HapticLimit ==>
      r.events == h.events + [HapticTooLongWarning]
  {
    if !h.hasDevice then h
    else if duration < HapticLimit then h.(events := h.events + [DeviceHapticPulse(duration, button)])
    else h.(events := h.events + [HapticTooLongWarning])
  }
}

=== FILE: hand_host.dfy ===
/** The hand as the engine drives it: any interleaving of frames, physics
    steps, trigger callbacks, haptic requests, direct begin/end calls from
    scripts and scripts switching interaction on or off. Over every such run the hover set stays well formed and the
    is-hovering notifications strictly alternate. */
module HandHost {
  import opened Ids
  import opened Optional
  import opened Vectors
  import opened Hand
  import HoverSet
  import PoseRing

  datatype HostCall =
    | OnFrame(frame: Frame)
    | OnPhysicsStep(position: Vec3, dt: real)
    | TriggerEnter(owner: Option<InteractableId>, enabled: bool, collider: ColliderId, now: real)
    | TriggerStay(owner: Option<InteractableId>, enabled: bool, collider: ColliderId, now: real)
    | TriggerExit(owner: Option<InteractableId>, collider: ColliderId)
    | Pulse(duration: UInt16, button: Button)
    | ScriptBegin(item: InteractableId, env: Env)
    | ScriptEnd(released: Option<InteractableId>)
    | Deregister(gone: InteractableId)
    | SetAbleToInteract(able: bool)

  /** The values of the is-hovering notifications in `log`, in order. */
  function HoverNotifications(log: seq<Event>): (s: seq<bool>)
    ensures |s| <= |log|
  {
    if |log| == 0 then []
    else
      var last := log[|log| - 1];
      HoverNotifications(log[..|log| - 1]) + (if last.OnChangeIsHovering? then [last.hovering] else [])
  }

  lemma {:induction false} HoverNotificationsAppend(a: seq<Event>, b: seq<Event>)
    ensures HoverNotifications(a + b) == HoverNotifications(a) + HoverNotifications(b)
    decreases |b|
  {
    if |b| == 0 {
      assert a + b == a;
    } else {
      var b' := b[..|b| - 1];
      assert (a + b)[..|a + b| - 1] == a + b';
      HoverNotificationsAppend(a, b');
    }
  }

  lemma {:induction false} NoHoverNotifications(s: seq<Event>)
    requires forall e :: e in s ==> !e.OnChangeIsHovering?
    ensures HoverNotifications(s) == []
    decreases |s|
  {
    if |s| > 0 {
      NoHoverNotifications(s[..|s| - 1]);
    }
  }

  lemma QuietKeepsNotifications(a: seq<Event>, b: seq<Event>)
    requires QuietExtension(a, b)
    ensures HoverNotifications(b) == HoverNotifications(a)
  {
    assert b == a + b[|a|..];
    HoverNotificationsAppend(a, b[|a|..]);
    NoHoverNotifications(b[|a|..]);
  }

  /** No two consecutive notifications carry the same value. */
  predicate Alternating(s: seq<bool>) {
    forall k :: 0 <= k < |s| - 1 ==> s[k] != s[k + 1]
  }

  /** The notifications so far alternate, start from "hovering", and the last
      one agrees with `wasHovering` (which is false before the first). */
  predicate HoverLogConsistent(h: Hand) {
    var s := HoverNotifications(h.events);
    && Alternating(s)
    && (|s| == 0 ==> !h.wasHovering)
    && (|s| > 0 ==> s[0] && s[|s| - 1] == h.wasHovering)
  }

  /** What holds of the hand between any two host calls. */
  predicate Good(h: Hand) {
    && HoverSet.WellFormed(h.hover)
    && PoseRing.Valid(h.ring)
    && HoverLogConsistent(h)
  }

  /** A freshly pre-initialised hand: uninitialised, visible, unlocked, no
      hover, nothing held, not hovering, empty log. */
  function Fresh(style: InteractionStyle, hasDevice: bool): (h: Hand)
    ensures Good(h)
  {
    Hand(style, Uninitialized, Visible, false, map[], None, false, true, hasDevice, PoseRing.Empty(), [])
  }

  /** A frame call enumerates the hand's hover dictionary as it is when the
      frame starts; the other calls carry no enumeration. */
  predicate Fits(h: Hand, call: HostCall) {
    call.OnFrame? ==> FrameFits(h, call.frame)
  }

  /** One host call: a frame, a physics step, or one of the callbacks. */
  function Step(h: Hand, cfg: Config, call: HostCall): Hand
    requires PoseRing.Valid(h.ring) && Fits(h, call)
  {
    if call.OnFrame? then Update(h, cfg, call.frame)
    else if call.OnPhysicsStep? then FixedUpdate(h, call.position, call.dt)
    else Callback(h, call)
  }

  /** The calls that arrive between frames: trigger callbacks, haptic
      requests and direct calls from scripts. */
  function Callback(h: Hand, call: HostCall): Hand
    requires !call.OnFrame? && !call.OnPhysicsStep?
  {
    match call
    case TriggerEnter(o, en, c, now) => OnTriggerEnterOrStay(h, o, en, c, now)
    case TriggerStay(o, en, c, now) => OnTriggerEnterOrStay(h, o, en, c, now)
    case TriggerExit(o, c) => OnTriggerExit(h, o, c)
    case Pulse(d, b) => TriggerHapticPulse(h, d, b)
    case ScriptBegin(i, env) => BeginInteraction(h, i, env)
    case ScriptEnd(item) => EndInteraction(h, item)
    case Deregister(i) => DeregisterInteractable(h, i)
    case SetAbleToInteract(able) => h.(ableToInteract := able)
  }

  /** The hover step raises a notification exactly when `wasHovering` flips,
      and the notification carries the new value. */
  lemma UpdateHoveringNotifiesOnFlip(h: Hand, cfg: Config, env: Env)
    ensures var r := UpdateHovering(h, cfg, env);
      HoverNotifications(r.events) == HoverNotifications(h.events)
        + (if r.wasHovering != h.wasHovering then [r.wasHovering] else [])
  {
    var r := UpdateHovering(h, cfg, env);
    var updates := if h.state == Idle then HoverUpdates(env.order, h.hover, env.now) else [];
    NoHoverNotifications(updates);
    HoverNotificationsAppend(h.events, updates);
    if r.wasHovering != h.wasHovering {
      var flip := [OnChangeIsHovering(r.wasHovering)];
      assert r.events == (h.events + updates) + flip;
      HoverNotificationsAppend(h.events + updates, flip);
      assert HoverNotifications(flip) == [r.wasHovering] by {
        assert flip[..0] == [];
      }
    } else {
      assert r.events == h.events + updates;
    }
  }

  /** Across a frame the notifications grow by the new `wasHovering` exactly
      when it flips. */
  lemma FrameNotifiesOnFlip(h: Hand, cfg: Config, f: Frame)
    requires FrameFits(h, f)
    ensures var r := Update(h, cfg, f);
      HoverNotifications(r.events) == HoverNotifications(h.events)
        + (if r.wasHovering != h.wasHovering then [r.wasHovering] else [])
  {
    if h.state != Uninitialized {
      var h1 := UpdateInteractions(h, cfg, f.buttons, f.env);
      QuietKeepsNotifications(h.events, h1.events);
      var h2 := UpdateHovering(h1, cfg, f.env);
      UpdateHoveringNotifiesOnFlip(h1, cfg, f.env);
      var h3 := UpdateVisibilityAndColliders(h2, cfg, f.buttons);
      assert Update(h, cfg, f) == h3;
      assert h3.events == h2.events && h3.wasHovering == h2.wasHovering;
    }
  }

  /** Appending the flipped value keeps a consistent log consistent. */
  lemma FlipKeepsConsistent(h: Hand, r: Hand)
    requires HoverLogConsistent(h)
    requires HoverNotifications(r.events) == HoverNotifications(h.events)
               + (if r.wasHovering != h.wasHovering then [r.wasHovering] else [])
    ensures HoverLogConsistent(r)
  {
    var s := HoverNotifications(r.events);
    var s0 := HoverNotifications(h.events);
    if r.wasHovering != h.wasHovering {
      assert s == s0 + [r.wasHovering];
      assert Alternating(s) by {
        forall k | 0 <= k < |s| - 1 ensures s[k] != s[k + 1] {
          if k + 1 < |s0| { assert s[k] == s0[k] && s[k + 1] == s0[k + 1]; }
        }
      }
    }
  }

  lemma FramePreservesGood(h: Hand, cfg: Config, f: Frame)
    requires Good(h) && FrameFits(h, f)
    ensures Good(Update(h, cfg, f))
  {
    FrameNotifiesOnFlip(h, cfg, f);
    FlipKeepsConsistent(h, Update(h, cfg, f));
  }

  /** A call that only appends quiet events, keeps the ring valid and the
      hover set well formed, and leaves `wasHovering` alone keeps the hand good. */
  lemma QuietCallPreservesGood(h: Hand, r: Hand)
    requires Good(h)
    requires QuietExtension(h.events, r.events)
    requires r.wasHovering == h.wasHovering
    requires PoseRing.Valid(r.ring) && HoverSet.WellFormed(r.hover)
    ensures Good(r)
  {
    QuietKeepsNotifications(h.events, r.events);
  }

  lemma PulseIsQuiet(h: Hand, d: UInt16, b: Button)
    ensures QuietExtension(h.events, TriggerHapticPulse(h, d, b).events)
  {
  }

  lemma TriggerEnterOrStayPreservesGood(h: Hand, o: Option<InteractableId>, en: bool, c: ColliderId, now: real)
    requires Good(h)
    ensures Good(OnTriggerEnterOrStay(h, o, en, c, now))
  {
    QuietCallPreservesGood(h, OnTriggerEnterOrStay(h, o, en, c, now));
  }

  lemma TriggerExitPreservesGood(h: Hand, o: Option<InteractableId>, c: ColliderId)
    requires Good(h)
    ensures Good(OnTriggerExit(h, o, c))
  {
    QuietCallPreservesGood(h, OnTriggerExit(h, o, c));
  }

  lemma PulsePreservesGood(h: Hand, d: UInt16, b: Button)
    requires Good(h)
    ensures Good(TriggerHapticPulse(h, d, b))
  {
    PulseIsQuiet(h, d, b);
    QuietCallPreservesGood(h, TriggerHapticPulse(h, d, b));
  }

  lemma ScriptBeginPreservesGood(h: Hand, i: InteractableId, env: Env)
    requires Good(h)
    ensures Good(BeginInteraction(h, i, env))
  {
    QuietCallPreservesGood(h, BeginInteraction(h, i, env));
  }

  lemma ScriptEndPreservesGood(h: Hand, item: Option<InteractableId>)
    requires Good(h)
    ensures Good(EndInteraction(h, item))
  {
    QuietCallPreservesGood(h, EndInteraction(h, item));
  }

  lemma DeregisterPreservesGood(h: Hand, i: InteractableId)
    requires Good(h)
    ensures Good(DeregisterInteractable(h, i))
  {
    QuietCallPreservesGood(h, DeregisterInteractable(h, i));
  }

  lemma CallbackPreservesGood(h: Hand, call: HostCall)
    requires Good(h)
    requires !call.OnFrame? && !call.OnPhysicsStep?
    ensures Good(Callback(h, call))
  {
    match call
    case TriggerEnter(o, en, c, now) => TriggerEnterOrStayPreservesGood(h, o, en, c, now);
    case TriggerStay(o, en, c, now) => TriggerEnterOrStayPreservesGood(h, o, en, c, now);
    case TriggerExit(o, c) => TriggerExitPreservesGood(h, o, c);
    case Pulse(d, b) => PulsePreservesGood(h, d, b);
    case ScriptBegin(i, env) => ScriptBeginPreservesGood(h, i, env);
    case ScriptEnd(item) => ScriptEndPreservesGood(h, item);
    case Deregister(i) => DeregisterPreservesGood(h, i);
    case SetAbleToInteract(able) => QuietCallPreservesGood(h, h.(ableToInteract := able));
  }

  lemma StepPreservesGood(h: Hand, cfg: Config, call: HostCall)
    requires Good(h) && Fits(h, call)
    ensures Good(Step(h, cfg, call))
  {
    if call.OnFrame? {
      FramePreservesGood(h, cfg, call.frame);
    } else if call.OnPhysicsStep? {
      QuietCallPreservesGood(h, FixedUpdate(h, call.position, call.dt));
    } else {
      CallbackPreservesGood(h, call);
    }
  }

  /** Every frame of the run enumerates the hover dictionary of the hand it
      reaches. */
  predicate Admissible(h: Hand, cfg: Config, calls: seq<HostCall>)
    requires Good(h)
    decreases |calls|
  {
    || |calls| == 0
    || (&& Fits(h, calls[0])
        && (StepPreservesGood(h, cfg, calls[0]);
            Admissible(Step(h, cfg, calls[0]), cfg, calls[1..])))
  }

  function Run(h: Hand, cfg: Config, calls: seq<HostCall>): (r: Hand)
    requires Good(h) && Admissible(h, cfg, calls)
    ensures Good(r)
    decreases |calls|
  {
    if |calls| == 0 then h
    else
      StepPreservesGood(h, cfg, calls[0]);
      Run(Step(h, cfg, calls[0]), cfg, calls[1..])
  }

  /** Over any run from a fresh hand, every hover key keeps at least one
      collider and no two consecutive is-hovering notifications agree, the
      first of them reporting that hovering began. */
  lemma HoverNotificationsAlternate(style: InteractionStyle, hasDevice: bool, cfg: Config,
                                    calls: seq<HostCall>)
    requires Admissible(Fresh(style, hasDevice), cfg, calls)
    ensures var r := Run(Fresh(style, hasDevice), cfg, calls);
      var s := HoverNotifications(r.events);
      && HoverSet.WellFormed(r.hover)
      && (forall k :: 0 <= k < |s| - 1 ==> s[k] != s[k + 1])
      && (|s| > 0 ==> s[0])
  {
  }
}

=== FILE: hand_properties.dfy ===
/** Properties of the hand state machine that relate several operations or
    single out one interaction style. */
module HandProperties {
  import opened Ids
  import opened Optional
  import opened Vectors
  import opened Hand
  import HoverSet
  import PoseRing

  // ---------------------------------------------------------------------
  // Event counting

  /** How many times `e` occurs in `log`. */
  function Count(log: seq<Event>, e: Event): (n: nat)
    ensures n <= |log|
    ensures n == 0 <==> e !in log
  {
    if |log| == 0 then 0
    else Count(log[..|log| - 1], e) + (if log[|log| - 1] == e then 1 else 0)
  }

  lemma {:induction false} CountAppend(a: seq<Event>, b: seq<Event>, e: Event)
    ensures Count(a + b, e) == Count(a, e) + Count(b, e)
    decreases |b|
  {
    if |b| > 0 {
      var b' := b[..|b| - 1];
      assert (a + b)[..|a + b| - 1] == a + b';
      CountAppend(a, b', e);
    } else {
      assert a + b == a;
    }
  }

  // ---------------------------------------------------------------------
  // Haptics

  /** A pulse reaches the device exactly once when there is a device and the
      duration is below 3000 microseconds, and never otherwise. Without a
      device nothing is logged; a pulse that is too long only logs the
      warning. */
  lemma HapticPulseForwardedOnce(h: Hand, d: UInt16, button: Button)
    ensures Count(TriggerHapticPulse(h, d, button).events, DeviceHapticPulse(d, button))
         == Count(h.events, DeviceHapticPulse(d, button))
            + (if h.hasDevice && d < HapticLimit then 1 else 0)
    ensures !h.hasDevice ==> TriggerHapticPulse(h, d, button).events == h.events
    ensures h.hasDevice && d >= HapticLimit ==>
      TriggerHapticPulse(h, d, button).events == h.events + [HapticTooLongWarning]
  {
    var r := TriggerHapticPulse(h, d, button);
    if !h.hasDevice {
    } else if d < HapticLimit {
      CountAppend(h.events, [DeviceHapticPulse(d, button)], DeviceHapticPulse(d, button));
      assert Count([DeviceHapticPulse(d, button)], DeviceHapticPulse(d, button)) == 1 by {
        assert [DeviceHapticPulse(d, button)][..0] == [];
      }
    } else {
      CountAppend(h.events, [HapticTooLongWarning], DeviceHapticPulse(d, button));
      assert Count([HapticTooLongWarning], DeviceHapticPulse(d, button)) == 0 by {
        assert [HapticTooLongWarning][..0] == [];
      }
    }
  }

  /** A pulse requested without arguments lasts 500 microseconds on the grip
      button, so a hand with a device forwards it. */
  lemma DefaultPulseIsForwarded(h: Hand)
    requires h.hasDevice
    ensures TriggerHapticPulse(h).events == h.events + [DeviceHapticPulse(500, Grip)]
  {
  }

  // ---------------------------------------------------------------------
  // Pose ring

  /** After two physics steps of an initialised hand at `p` and then `q`,
      the hand reports `q - p` as its position delta. */
  lemma PositionDeltaAfterTwoPhysicsSteps(h: Hand, p: Vec3, dtp: real, q: Vec3, dtq: real)
    requires PoseRing.Valid(h.ring) && h.state != Uninitialized
    ensures GetPositionDelta(FixedUpdate(FixedUpdate(h, p, dtp), q, dtq)) == Sub(q, p)
  {
    PoseRing.PositionDeltaAfterTwoSteps(h.ring, p, dtp, q, dtq);
  }

  // ---------------------------------------------------------------------
  // Ending an interaction

  /** Ending twice is ending once: the second call finds nothing held, so it
      neither calls an interactable nor raises an event. */
  lemma EndInteractionIdempotent(h: Hand, item: Option<InteractableId>)
    ensures EndInteraction(EndInteraction(h, item), item) == EndInteraction(h, item)
  {
  }

  /** One end call reaches the held interactable's EndInteraction at most
      once, and not at all when nothing is held. */
  lemma EndInteractionCallsItemAtMostOnce(h: Hand, item: Option<InteractableId>, i: InteractableId)
    ensures Count(EndInteraction(h, item).events, CallEndInteraction(i))
         == Count(h.events, CallEndInteraction(i)) + (if h.interacting == Some(i) then 1 else 0)
  {
    var r := EndInteraction(h, item);
    if h.interacting.Some? {
      var c := h.interacting.value;
      var tail := [OnEndInteractionCustomHands(c), CallEndInteraction(c), OnEndInteraction(c)];
      CountAppend(h.events, tail, CallEndInteraction(i));
      assert tail[..2][..1] == [OnEndInteractionCustomHands(c)];
      assert tail[..2][..1][..0] == [];
      assert tail[..|tail| - 1] == tail[..2];
    }
  }

  /** A grab followed by a release leaves nothing held and has called the
      interactable's BeginInteraction and then its EndInteraction. */
  lemma BeginThenEnd(h: Hand, i: InteractableId, env: Env)
    requires h.interacting.None?
    requires env.canAttach(i)
    ensures var r := EndInteraction(BeginInteraction(h, i, env), None);
      && r.interacting.None?
      && r.hover == h.hover
      && r.events == h.events
           + [OnBeginInteractionCustomHands(i), CallBeginInteraction(i), OnBeginInteraction(i)]
           + [OnEndInteractionCustomHands(i), CallEndInteraction(i), OnEndInteraction(i)]
  {
  }

  // ---------------------------------------------------------------------
  // Pickup

  /** At most one index is the first closest. */
  lemma FirstClosestUnique(order: seq<InteractableId>, env: Env, p: int, p': int)
    requires FirstClosest(order, env, p) && FirstClosest(order, env, p')
    ensures p == p'
  {
  }

  /** Over the hover set {A at 2.0, B at 0.5, C at 1.0}, enumerated in that
      order, pickup grabs B. */
  lemma PickupExample(h: Hand, canAttach: InteractableId -> bool)
    requires h.interacting.None?
    requires forall k :: canAttach(k)
    ensures var a, b, c := InteractableId(0), InteractableId(1), InteractableId(2);
      var env := Env([a, b, c], {}, k => if k == a then 2.0 else if k == b then 0.5 else 1.0, canAttach, 0.0);
      PickupClosest(h, env).0.interacting == Some(b)
  {
    var a, b, c := InteractableId(0), InteractableId(1), InteractableId(2);
    var env := Env([a, b, c], {}, k => if k == a then 2.0 else if k == b then 0.5 else 1.0, canAttach, 0.0);
    var p :| FirstClosest(env.order, env, p)
      && (env.canAttach(env.order[p]) ==> PickupClosest(h, env).0.interacting == Some(env.order[p]));
    assert FirstClosest(env.order, env, 1);
    FirstClosestUnique(env.order, env, p, 1);
  }

  // ---------------------------------------------------------------------
  // Hold style

  /** With interaction disabled nothing but grab notifications happens:
      state, held item, visibility lock and hover set are untouched. */
  lemma DisabledHandOnlyNotifies(h: Hand, cfg: Config, b: Buttons, env: Env)
    requires !h.ableToInteract
    ensures var r := UpdateInteractions(h, cfg, b, env);
      && r.state == h.state && r.interacting == h.interacting
      && r.visibilityLocked == h.visibilityLocked && r.hover == h.hover
      && forall e :: e in r.events[|h.events|..] ==> e.OnChangeIsGrabbing?
  {
    var r := UpdateInteractions(h, cfg, b, env);
    assert r.events[|h.events|..] ==
      (if h.style == Hold && ReleaseEdge(cfg, b) then [OnChangeIsGrabbing(false)] else [])
      + (if GrabEdge(cfg, b) then [OnChangeIsGrabbing(true)] else []);
  }

  /** In Hold style a held interactable is released exactly on a release edge
      without a grab edge in the same frame; a grab edge wins over release. */
  lemma HoldReleasesOnlyOnReleaseEdge(h: Hand, cfg: Config, b: Buttons, env: Env)
    requires h.ableToInteract && h.style == Hold
    requires h.interacting.Some?
    ensures var r := UpdateInteractions(h, cfg, b, env);
      && (r.interacting.None? <==> ReleaseEdge(cfg, b) && !GrabEdge(cfg, b))
      && (r.interacting.Some? ==> r.interacting == h.interacting)
      && r.state == h.state
  {
  }

  /** With two hold buttons, letting go of one while the other stays pressed
      keeps the interaction. */
  lemma TwoButtonHoldSurvivesOneButtonUp(h: Hand, cfg: Config, b: Buttons, env: Env)
    requires h.ableToInteract && h.style == Hold && cfg.useTwoButtonsToHold
    requires h.interacting.Some?
    requires b.holdUp && b.secondPressed && !b.secondUp
    ensures UpdateInteractions(h, cfg, b, env).interacting == h.interacting
  {
  }

  /** In Hold style a grab edge while holding nothing grabs the first closest
      attachable candidate. */
  lemma HoldGrabEdgePicksUp(h: Hand, cfg: Config, b: Buttons, env: Env, p: int)
    requires h.ableToInteract && h.style == Hold
    requires h.interacting.None?
    requires GrabEdge(cfg, b)
    requires FirstClosest(env.order, env, p) && env.canAttach(env.order[p])
    ensures UpdateInteractions(h, cfg, b, env).interacting == Some(env.order[p])
  {
    var h1 :=
      if ReleaseEdge(cfg, b) then
        h.(visibilityLocked := false, events := h.events + [OnChangeIsGrabbing(false), OnUnfreezeHand])
      else h;
    var h2 := h1.(events := h1.events + [OnChangeIsGrabbing(true)]);
    var p' :| FirstClosest(env.order, env, p')
      && (env.canAttach(env.order[p']) ==> PickupClosest(h2, env).0.interacting == Some(env.order[p']));
    FirstClosestUnique(env.order, env, p, p');
  }

  /** In Hold style a release edge clears the visibility lock; otherwise the
      interaction step leaves the lock alone. */
  lemma HoldReleaseClearsLock(h: Hand, cfg: Config, b: Buttons, env: Env)
    requires h.ableToInteract && h.style == Hold
    ensures var r := UpdateInteractions(h, cfg, b, env);
      && (ReleaseEdge(cfg, b) ==> !r.visibilityLocked)
      && (!ReleaseEdge(cfg, b) ==> r.visibilityLocked == h.visibilityLocked)
  {
  }

  // ---------------------------------------------------------------------
  // Toggle style

  /** From Idle, a grab edge toggles on: to the holding state when the pickup
      attached something (or something was already held), else to the
      not-holding state with physical hands, else the hand stays Idle. */
  lemma ToggleFromIdle(h: Hand, cfg: Config, b: Buttons, env: Env)
    requires h.ableToInteract && h.style == Toggle && h.state == Idle
    requires GrabEdge(cfg, b)
    ensures var r := UpdateInteractions(h, cfg, b, env);
      && r.interacting == PickupClosest(h, env).0.interacting
      && r.state == (if r.interacting.Some? then GripToggleOnInteracting
                     else if cfg.physicalHands then GripToggleOnNotInteracting
                     else Idle)
  {
  }

  /** From either toggled-on state, a grab edge returns to Idle and clears the
      visibility lock. Only the toggled-on-interacting state releases what is
      held; an item a script began while the hand was toggled on over nothing
      stays held. */
  lemma ToggleOffFromToggledOn(h: Hand, cfg: Config, b: Buttons, env: Env)
    requires h.ableToInteract && h.style == Toggle
    requires h.state == GripToggleOnInteracting || h.state == GripToggleOnNotInteracting
    requires GrabEdge(cfg, b)
    ensures var r := UpdateInteractions(h, cfg, b, env);
      && r.state == Idle && !r.visibilityLocked
      && (h.state == GripToggleOnInteracting ==> r.interacting.None?)
      && (h.state == GripToggleOnNotInteracting ==> r.interacting == h.interacting)
  {
  }

  /** Without a grab edge, Toggle style changes neither state, held item nor
      lock. */
  lemma ToggleIgnoresFramesWithoutGrab(h: Hand, cfg: Config, b: Buttons, env: Env)
    requires h.ableToInteract && h.style == Toggle
    requires !GrabEdge(cfg, b)
    ensures var r := UpdateInteractions(h, cfg, b, env);
      r.state == h.state && r.interacting == h.interacting && r.visibilityLocked == h.visibilityLocked
  {
  }

  /** ByScript style makes no transitions of its own. */
  lemma ByScriptMakesNoTransitions(h: Hand, cfg: Config, b: Buttons, env: Env)
    requires h.ableToInteract && h.style == ByScript
    ensures var r := UpdateInteractions(h, cfg, b, env);
      && r.state == h.state && r.interacting == h.interacting
      && r.visibilityLocked == h.visibilityLocked
      && r.events == h.events + (if h.interacting.Some? then [CallInteractingUpdate(h.interacting.value)] else [])
  {
  }

  // ---------------------------------------------------------------------
  // Visibility lock

  /** With physical hands in Hold style, a locked hand keeps its visibility
      and state through the visibility step. */
  lemma LockedHoldHandKeepsVisibility(h: Hand, cfg: Config, b: Buttons)
    requires cfg.physicalHands && h.style == Hold && h.visibilityLocked
    ensures UpdateVisibilityAndColliders(h, cfg, b) == h
  {
  }

  /** With physical hands in Toggle style, a locked toggled-on hand keeps its
      visibility; a locked Idle hand has its lock cleared and keeps its
      visibility. */
  lemma LockedToggleHand(h: Hand, cfg: Config, b: Buttons)
    requires cfg.physicalHands && h.style == Toggle && h.visibilityLocked
    ensures h.state == GripToggleOnInteracting || h.state == GripToggleOnNotInteracting ==>
      UpdateVisibilityAndColliders(h, cfg, b) == h
    ensures h.state == Idle ==>
      UpdateVisibilityAndColliders(h, cfg, b) == h.(visibilityLocked := false)
  {
  }

  /** An unlocked Hold hand pressing the grip over nothing becomes visible,
      takes the lock and enters GripDownNotInteracting; one already in that
      state is left as it is. */
  lemma HoldGripOverNothingShowsHand(h: Hand, cfg: Config, b: Buttons)
    requires cfg.physicalHands && h.style == Hold && !h.visibilityLocked
    requires b.holdPressed && h.interacting.None?
    ensures var r := UpdateVisibilityAndColliders(h, cfg, b);
      h.state != GripDownNotInteracting ==>
        r.visibility == Visible && r.visibilityLocked && r.state == GripDownNotInteracting
    ensures h.state == GripDownNotInteracting ==> UpdateVisibilityAndColliders(h, cfg, b) == h
  {
  }

  /** Holding N frames with the lock taken changes nothing: repeated
      visibility steps of a locked Hold hand are no-ops. */
  lemma LockedHoldHandStaysPut(h: Hand, cfg: Config, frames: seq<Buttons>)
    requires cfg.physicalHands && h.style == Hold && h.visibilityLocked
    ensures VisibilityRun(h, cfg, frames) == h
    decreases |frames|
  {
    if |frames| > 0 {
      LockedHoldHandKeepsVisibility(h, cfg, frames[0]);
      LockedHoldHandStaysPut(h, cfg, frames[1..]);
    }
  }

  /** An unlocked Hold hand that holds something, on a down-edge of either
      hold button, is hidden (or ghosted when hiding on interaction is off),
      takes the lock and enters GripDownInteracting; one already in that
      state is left as it is. */
  lemma HoldGripWhileHolding(h: Hand, cfg: Config, b: Buttons)
    requires cfg.physicalHands && h.style == Hold && !h.visibilityLocked
    requires (b.holdDown || b.secondDown) && h.interacting.Some?
    ensures h.state == GripDownInteracting ==> UpdateVisibilityAndColliders(h, cfg, b) == h
    ensures var r := UpdateVisibilityAndColliders(h, cfg, b);
      h.state != GripDownInteracting ==>
        && r.visibility == (if cfg.invisibleOnInteraction then Invisible else Ghost)
        && r.visibilityLocked && r.state == GripDownInteracting && r.interacting == h.interacting
  {
  }

  /** An unlocked Hold hand holding nothing with the grip up falls back to
      Ghost and Idle without taking the lock; an Idle one is left as it is. */
  lemma HoldReleasedHandGhosts(h: Hand, cfg: Config, b: Buttons)
    requires cfg.physicalHands && h.style == Hold && !h.visibilityLocked
    requires !b.holdPressed && h.interacting.None?
    ensures h.state != Idle ==> UpdateVisibilityAndColliders(h, cfg, b) == h.(visibility := Ghost, state := Idle)
    ensures h.state == Idle ==> UpdateVisibilityAndColliders(h, cfg, b) == h
  {
  }

  /** A Hold hand that holds something and sees no down-edge this frame
      keeps its level, lock and state. */
  lemma HoldingWithoutGrabEdgeKeepsHand(h: Hand, cfg: Config, b: Buttons)
    requires cfg.physicalHands && h.style == Hold
    requires h.interacting.Some? && !b.holdDown && !b.secondDown
    ensures UpdateVisibilityAndColliders(h, cfg, b) == h
  {
  }

  /** An Idle Toggle hand: unlocked and not yet Ghost, it is ghosted and
      stays unlocked; otherwise only its lock is cleared. */
  lemma ToggleIdleLevel(h: Hand, cfg: Config, b: Buttons)
    requires cfg.physicalHands && h.style == Toggle && h.state == Idle
    ensures !h.visibilityLocked && h.visibility != Ghost ==>
      UpdateVisibilityAndColliders(h, cfg, b) == h.(visibility := Ghost)
    ensures h.visibilityLocked || h.visibility == Ghost ==>
      UpdateVisibilityAndColliders(h, cfg, b) == h.(visibilityLocked := false)
  {
  }

  /** An unlocked toggled-on hand takes the lock: Ghost when it holds
      something, Visible when it toggled on over nothing. */
  lemma ToggleOnLevels(h: Hand, cfg: Config, b: Buttons)
    requires cfg.physicalHands && h.style == Toggle && !h.visibilityLocked
    ensures h.state == GripToggleOnInteracting ==>
      UpdateVisibilityAndColliders(h, cfg, b) == h.(visibility := Ghost, visibilityLocked := true)
    ensures h.state == GripToggleOnNotInteracting ==>
      UpdateVisibilityAndColliders(h, cfg, b) == h.(visibility := Visible, visibilityLocked := true)
  {
  }

  /** A locked Idle Toggle hand that is not Ghost keeps its level on the
      frame that clears the lock and is ghosted on the frame after. */
  lemma ToggleIdleGhostsFrameAfterUnlock(h: Hand, cfg: Config, b1: Buttons, b2: Buttons)
    requires cfg.physicalHands && h.style == Toggle && h.state == Idle
    requires h.visibilityLocked && h.visibility != Ghost
    ensures var r1 := UpdateVisibilityAndColliders(h, cfg, b1);
      var r2 := UpdateVisibilityAndColliders(r1, cfg, b2);
      && r1.visibility == h.visibility && !r1.visibilityLocked
      && r2.visibility == Ghost && !r2.visibilityLocked
  {
    ToggleIdleLevel(h, cfg, b1);
    ToggleIdleLevel(h.(visibilityLocked := false), cfg, b2);
  }

  /** A Hold hand locked in GripDownInteracting, on a frame that lifts the
      single hold button: the interaction step clears the lock and lets go,
      so the visibility step of the same frame ghosts the hand and returns it
      to Idle. */
  lemma HoldReleaseUnlocksAndGhosts(h: Hand, cfg: Config, f: Frame)
    requires FrameFits(h, f)
    requires cfg.physicalHands && !cfg.useTwoButtonsToHold
    requires h.style == Hold && h.state == GripDownInteracting && h.visibilityLocked
    requires h.ableToInteract && h.interacting.Some?
    requires f.buttons.holdUp && !f.buttons.holdDown && !f.buttons.holdPressed && !f.buttons.secondDown
    ensures var r := Update(h, cfg, f);
      r.interacting.None? && !r.visibilityLocked && r.visibility == Ghost && r.state == Idle
  {
    var h1 := UpdateInteractions(h, cfg, f.buttons, f.env);
    assert ReleaseEdge(cfg, f.buttons) && !GrabEdge(cfg, f.buttons);
    assert h1.interacting.None? && !h1.visibilityLocked && h1.state == GripDownInteracting;
    var h2 := UpdateHovering(h1, cfg, f.env);
    assert Update(h, cfg, f) == UpdateVisibilityAndColliders(h2, cfg, f.buttons);
  }

  // ---------------------------------------------------------------------
  // Hovering updates

  /** `added` calls HoveringUpdate exactly on the keys of `hover` that have
      a collider, each with the time since its earliest overlap. */
  ghost predicate CallsEachHoveredKey(added: seq<Event>, hover: HoverSet.Hover, now: real) {
    forall k, t :: CallHoveringUpdate(k, t) in added <==>
      k in hover && |hover[k]| > 0 && t == now - HoverSet.EarliestOverlap(hover[k])
  }

  /** No hovering-update call occurs twice in `added`. */
  predicate CallsOnce(added: seq<Event>) {
    forall i, j :: 0 <= i < j < |added| && added[i].CallHoveringUpdate? ==> added[i] != added[j]
  }

  /** While Idle, the hover step of a frame that enumerates the hover
      dictionary calls HoveringUpdate exactly on the keys that have a
      collider, once each, with the time since the key's earliest overlap;
      in any other state it calls none. */
  lemma IdleHoverStepUpdatesEachHoveredKeyOnce(h: Hand, cfg: Config, env: Env)
    requires Enumerates(env.order, h.hover) && NoRepeats(env.order)
    ensures var added := UpdateHovering(h, cfg, env).events[|h.events|..];
      && (h.state == Idle ==> CallsEachHoveredKey(added, h.hover, env.now))
      && CallsOnce(added)
      && (h.state != Idle ==> forall e :: e in added ==> !e.CallHoveringUpdate?)
  {
    var r := UpdateHovering(h, cfg, env);
    var updates := if h.state == Idle then HoverUpdates(env.order, h.hover, env.now) else [];
    var flip := if r.wasHovering != h.wasHovering then [OnChangeIsHovering(r.wasHovering)] else [];
    assert r.events == h.events + (updates + flip);
    AddedAfter(h.events, r.events, updates + flip);
    if h.state == Idle {
      IdleCalls(updates + flip, env.order, h.hover, env.now, flip);
    } else {
      CallsBeforeNotification(updates, flip);
    }
  }

  lemma AddedAfter(before: seq<Event>, after: seq<Event>, added: seq<Event>)
    requires after == before + added
    ensures after[|before|..] == added
  {
  }

  /** The calls among the hovering updates over an enumeration followed by
      events that are not calls. */
  lemma IdleCalls(added: seq<Event>, order: seq<InteractableId>, hover: HoverSet.Hover, now: real,
                  tail: seq<Event>)
    requires Enumerates(order, hover) && NoRepeats(order)
    requires forall e :: e in tail ==> !e.CallHoveringUpdate?
    requires added == HoverUpdates(order, hover, now) + tail
    ensures CallsEachHoveredKey(added, hover, now)
    ensures CallsOnce(added)
  {
    var updates := HoverUpdates(order, hover, now);
    HoverUpdatesOverEnumeration(order, hover, now);
    CallsBeforeNotification(updates, tail);
  }

  /** Appending events that are not hovering-update calls adds no such call
      and cannot repeat one. */
  lemma CallsBeforeNotification(updates: seq<Event>, tail: seq<Event>)
    requires forall e :: e in tail ==> !e.CallHoveringUpdate?
    ensures forall k, t :: CallHoveringUpdate(k, t) in updates + tail <==> CallHoveringUpdate(k, t) in updates
    ensures forall e :: e in updates + tail && e.CallHoveringUpdate? ==> e in updates
    ensures (forall i, j :: 0 <= i < j < |updates| ==> updates[i] != updates[j]) ==> CallsOnce(updates + tail)
  {
  }

  /** Over an enumeration of the hover dictionary, the hovering-update calls
      go exactly to the keys that have a collider, once each. */
  lemma HoverUpdatesOverEnumeration(order: seq<InteractableId>, hover: HoverSet.Hover, now: real)
    requires Enumerates(order, hover) && NoRepeats(order)
    ensures CallsEachHoveredKey(HoverUpdates(order, hover, now), hover, now)
    ensures forall i, j :: 0 <= i < j < |HoverUpdates(order, hover, now)| ==>
      HoverUpdates(order, hover, now)[i] != HoverUpdates(order, hover, now)[j]
  {
    CallsOverEnumeration(HoverUpdates(order, hover, now), order, hover, now);
  }

  /** A call list that reaches every listed key with a collider and only
      such keys, over an enumeration, calls exactly the hovered keys. */
  lemma CallsOverEnumeration(r: seq<Event>, order: seq<InteractableId>, hover: HoverSet.Hover, now: real)
    requires Enumerates(order, hover)
    requires forall e :: e in r ==>
      && e.CallHoveringUpdate? && e.item in order && e.item in hover && |hover[e.item]| > 0
      && e.forTime == now - HoverSet.EarliestOverlap(hover[e.item])
    requires forall k :: k in order && k in hover && |hover[k]| > 0 ==>
      CallHoveringUpdate(k, now - HoverSet.EarliestOverlap(hover[k])) in r
    ensures CallsEachHoveredKey(r, hover, now)
  {
    forall k, t
      ensures CallHoveringUpdate(k, t) in r <==>
        k in hover && |hover[k]| > 0 && t == now - HoverSet.EarliestOverlap(hover[k])
    {
      var e := CallHoveringUpdate(k, t);
      assert e.item == k && e.forTime == t;
      if k in hover { assert k in order; }
    }
  }

  /** The visibility step applied once per frame of `frames`. */
  function VisibilityRun(h: Hand, cfg: Config, frames: seq<Buttons>): Hand
    decreases |frames|
  {
    if |frames| == 0 then h
    else VisibilityRun(UpdateVisibilityAndColliders(h, cfg, frames[0]), cfg, frames[1..])
  }
}

=== FILE: hover_set.dfy ===
/** The hand's hover set: for every interactable whose colliders overlap the
    hand's trigger volume, the overlapping colliders and the time each overlap
    was first seen. Maintained by the trigger enter, stay and exit callbacks. */
module HoverSet {
  import opened Ids

  type Hover = map<InteractableId, map<ColliderId, real>>

  /** Every key still has at least one overlapping collider. */
  predicate WellFormed(h: Hover) {
    forall i :: i in h ==> |h[i]| > 0
  }

  /** Some interactable has at least one overlapping collider. */
  predicate IsHovering(h: Hover) {
    exists i :: i in h && |h[i]| > 0
  }

  /** In a well-formed hover set, hovering is the same as having any key. */
  lemma HoveringIffNonEmpty(h: Hover)
    requires WellFormed(h)
    ensures IsHovering(h) <==> |h| > 0
  {
    if |h| > 0 {
      var i :| i in h;
      assert |h[i]| > 0;
    }
  }

  /** The trigger enter and trigger stay callbacks once the collider has been
      resolved to an enabled interactable `i`: records collider `c` under `i`
      with first-overlap time `now` unless it is already recorded. */
  function AddOverlap(h: Hover, i: InteractableId, c: ColliderId, now: real): (r: Hover)
    ensures i in r && c in r[i]
    // an existing first-overlap time is never overwritten
    ensures i in h && c in h[i] ==> r == h
    ensures !(i in h && c in h[i]) ==> r[i][c] == now
    ensures forall d :: d in r[i] && d != c ==> i in h && d in h[i] && r[i][d] == h[i][d]
    ensures forall d :: i in h && d in h[i] ==> d in r[i]
    ensures forall j :: j in r && j != i ==> j in h && r[j] == h[j]
    ensures forall j :: j in h ==> j in r
    ensures WellFormed(h) ==> WellFormed(r)
  {
    if i in h && c in h[i] then h
    else
      var inner := if i in h then h[i] else map[];
      h[i := inner[c := now]]
  }

  /** The trigger exit callback once the collider has been resolved to
      interactable `i`: drops the collider, and drops `i` exactly when its last
      collider leaves. An exit for an unrecorded collider changes nothing. */
  function RemoveOverlap(h: Hover, i: InteractableId, c: ColliderId): (r: Hover)
    ensures !(i in h && c in h[i]) ==> r == h
    ensures i in h && c in h[i] ==>
      && (i in r <==> |h[i]| > 1)
      && (i in r ==> c !in r[i]
                     && (forall d :: d in h[i] && d != c ==> d in r[i])
                     && forall d :: d in r[i] ==> d in h[i] && r[i][d] == h[i][d])
    ensures forall j :: j in r && j != i ==> j in h && r[j] == h[j]
    ensures forall j :: j in h && j != i ==> j in r
    ensures WellFormed(h) ==> WellFormed(r)
  {
    if i in h && c in h[i] then
      var inner := h[i] - {c};
      assert |inner| == |h[i]| - 1;
      if |inner| == 0 then h - {i} else h[i := inner]
    else h
  }

  /** Removes an interactable and all its colliders; absent keys are a no-op. */
  function Forget(h: Hover, i: InteractableId): (r: Hover)
    ensures r.Keys == h.Keys - {i}
    ensures forall j :: j in r ==> r[j] == h[j]
    ensures i !in h ==> r == h
    ensures WellFormed(h) ==> WellFormed(r)
  {
    if i in h then h - {i} else h
  }

  lemma EarliestExists(m: map<ColliderId, real>)
    requires |m| > 0
    ensures exists c :: c in m && forall d :: d in m ==> m[c] <= m[d]
    decreases |m|
  {
    var c :| c in m;
    var m' := m - {c};
    assert m.Keys == m'.Keys + {c};
    if |m'| == 0 {
      assert m'.Keys == {};
    } else {
      EarliestExists(m');
      var c' :| c' in m' && forall d :: d in m' ==> m'[c'] <= m'[d];
      var best := if m[c] <= m[c'] then c else c';
      assert forall d :: d in m ==> m[best] <= m[d] by {
        forall d | d in m ensures m[best] <= m[d] {
          if d != c { assert d in m'; }
        }
      }
    }
  }

  /** The earliest first-overlap time among an interactable's colliders. */
  function EarliestOverlap(m: map<ColliderId, real>): (r: real)
    requires |m| > 0
    ensures exists c :: c in m && m[c] == r
    ensures forall c :: c in m ==> r <= m[c]
  {
    EarliestExists(m);
    var c :| c in m && forall d :: d in m ==> m[c] <= m[d];
    m[c]
  }
}

=== FILE: ids.dfy ===
/** Opaque identities of the engine objects the core refers to. The engine's
    objects are reference types; here each is a plain identifier, compared by
    value, that carries no behaviour of its own. */
module Ids {
  /** An interactable object (the target of hovering and grabbing). */
  datatype InteractableId = InteractableId(n: nat)

  /** A hand (the actor that hovers and grabs). */
  datatype HandId = HandId(n: nat)

  /** A physics collider. */
  datatype ColliderId = ColliderId(n: nat)

  /** A physic material that can be assigned to a collider. */
  datatype MaterialId = MaterialId(n: nat)
}

=== FILE: interactable_item.dfy ===
/** The grabbable item's side of an interaction: one pickup pose per holding
    hand, the damping it had before being held, the physic-material cache,
    the velocity history whose mean becomes the release ("toss") velocity,
    and the external-velocity accumulator other objects push into.

    The rigid body's velocities are plain state here; the control step that
    drives them toward the hands (a float computation over quaternions) is a
    parameter of the physics step. */
module InteractableItem {
  import opened Ids
  import opened Optional
  import opened Vectors
  import VelocityHistory
  import Materials

  /** The item's UnityEvents, recorded in the order they are invoked. */
  datatype ItemEvent = OnBeginInteraction | OnEndInteraction

  datatype Item = Item(
    pickups: map<HandId, Pose>,
    drag: real,
    angularDrag: real,
    startingDrag: real,
    startingAngularDrag: real,
    velocity: Vec3,
    angularVelocity: Vec3,
    externalVelocity: Vec3,
    externalAngularVelocity: Vec3,
    history: VelocityHistory.History,
    colliders: Option<Materials.Colliders>,
    physics: Materials.State,
    pose: Pose,
    events: seq<ItemEvent>)

  /** How a call ends: normally, or with the exception `Dictionary.Add`
      raises for a hand that already holds the item, after the steps that
      precede it have taken effect. */
  datatype Completion = Returned(item: Item) | DuplicateKey(item: Item)

  /** The drag the rigid body gets while held, and its angular drag. */
  const HeldDrag: real := 0.0
  const HeldAngularDrag: real := 0.05

  /** The value of the saved damping before any interaction began. */
  const NoSavedDrag: real := -1.0

  predicate Valid(item: Item) {
    VelocityHistory.Valid(item.history)
  }

  /** The item as it stands after start-up: nothing holds it, no damping is
      saved, both accumulators are zero, the cache is empty, and a history
      is allocated only for a positive number of steps. */
  function Spawn(historySteps: int, drag: real, angularDrag: real, velocity: Vec3, angularVelocity: Vec3,
                 colliders: Option<Materials.Colliders>, materials: Materials.Assignment, pose: Pose): (r: Item)
    ensures Valid(r)
    ensures r.pickups == map[] && r.events == []
    ensures r.startingDrag == NoSavedDrag && r.startingAngularDrag == NoSavedDrag
    ensures |r.history.velocities| == (if historySteps > 0 then historySteps else 0)
  {
    Item(map[], drag, angularDrag, NoSavedDrag, NoSavedDrag, velocity, angularVelocity, Zero, Zero,
         VelocityHistory.Allocate(historySteps), colliders, Materials.State(materials, map[]), pose, [])
  }

  // ---------------------------------------------------------------------
  // Velocity history

  /** Empties the history and rewinds its step. */
  function ResetVelocityHistory(item: Item): (r: Item)
    requires Valid(item)
    ensures Valid(r)
    ensures r.history.step == 0
    ensures |r.history.velocities| == |item.history.velocities|
    ensures forall k :: 0 <= k < |r.history.velocities| ==>
              r.history.velocities[k].None? && r.history.angularVelocities[k].None?
    ensures r == item.(history := r.history)
  {
    item.(history := VelocityHistory.Reset(item.history))
  }

  /** The release velocity: each of the two velocities is replaced by the
      mean of its history when that mean exists, and left alone otherwise. */
  function ApplyVelocityHistory(item: Item): (r: Item)
    requires Valid(item)
    ensures r == item.(velocity := r.velocity, angularVelocity := r.angularVelocity)
    ensures (forall k :: 0 <= k < |item.history.velocities| ==> item.history.velocities[k].None?)
              ==> r.velocity == item.velocity
    ensures (forall k :: 0 <= k < |item.history.angularVelocities| ==> item.history.angularVelocities[k].None?)
              ==> r.angularVelocity == item.angularVelocity
    ensures VelocityHistory.Mean(item.history.velocities).Some? ==>
              r.velocity == VelocityHistory.Mean(item.history.velocities).value
    ensures VelocityHistory.Mean(item.history.angularVelocities).Some? ==>
              r.angularVelocity == VelocityHistory.Mean(item.history.angularVelocities).value
  {
    var mean := VelocityHistory.Mean(item.history.velocities);
    var meanAngular := VelocityHistory.Mean(item.history.angularVelocities);
    item.(velocity := if mean.Some? then mean.value else item.velocity,
          angularVelocity := if meanAngular.Some? then meanAngular.value else item.angularVelocity)
  }

  // ---------------------------------------------------------------------
  // Begin and end

  /** A hand starts holding the item. The current damping is saved (on every
      call, so a second hand saves the already-lowered values), the held
      damping is set and the colliders lose their materials; then the hand's
      pickup pose is recorded, which fails for a hand already present. Only
      a successful call resets the history and raises the begin event. */
  function BeginInteraction(item: Item, hand: HandId): (r: Completion)
    requires Valid(item)
    ensures Valid(r.item)
    ensures r.DuplicateKey? <==> hand in item.pickups
    ensures r.item.startingDrag == item.drag && r.item.startingAngularDrag == item.angularDrag
    ensures r.item.drag == HeldDrag && r.item.angularDrag == HeldAngularDrag
    ensures r.item.physics == Materials.DisablePhysicalMaterials(item.colliders, item.physics)
    ensures r.item.velocity == item.velocity && r.item.angularVelocity == item.angularVelocity
    ensures r.item == item.(startingDrag := r.item.startingDrag, startingAngularDrag := r.item.startingAngularDrag,
                            drag := r.item.drag, angularDrag := r.item.angularDrag, physics := r.item.physics,
                            pickups := r.item.pickups, history := r.item.history, events := r.item.events)
    ensures r.DuplicateKey? ==>
      r.item.pickups == item.pickups && r.item.events == item.events && r.item.history == item.history
    ensures r.Returned? ==>
      && r.item.pickups.Keys == item.pickups.Keys + {hand}
      && r.item.pickups[hand] == item.pose
      && (forall g :: g in item.pickups ==> r.item.pickups[g] == item.pickups[g])
      && r.item.events == item.events + [OnBeginInteraction]
      && r.item.history.step == 0
      && |r.item.history.velocities| == |item.history.velocities|
      && (forall k :: 0 <= k < |r.item.history.velocities| ==>
            r.item.history.velocities[k].None? && r.item.history.angularVelocities[k].None?)
  {
    var saved := item.(startingDrag := item.drag, startingAngularDrag := item.angularDrag,
                       drag := HeldDrag, angularDrag := HeldAngularDrag,
                       physics := Materials.DisablePhysicalMaterials(item.colliders, item.physics));
    if hand in item.pickups then DuplicateKey(saved)
    else
      var added := saved.(pickups := item.pickups[hand := item.pose]);
      var reset := ResetVelocityHistory(added);
      Returned(reset.(events := item.events + [OnBeginInteraction]))
  }

  /** The pickup map after an end call: all entries go for a null hand, only
      that hand's entry otherwise. */
  function RemainingPickups(pickups: map<HandId, Pose>, hand: Option<HandId>): (r: map<HandId, Pose>)
    ensures hand.None? ==> r == map[]
    ensures hand.Some? ==> r.Keys == pickups.Keys - {hand.value}
    ensures forall g :: g in r ==> g in pickups && r[g] == pickups[g]
  {
    match hand
    case None => map[]
    case Some(h) => if h in pickups then pickups - {h} else pickups
  }

  /** A hand (or, for null, every hand) stops holding the item. Only when no
      hand is left is the saved damping restored, the materials put back, the
      history's mean applied as the release velocity, the history emptied and
      the end event raised. */
  function EndInteraction(item: Item, hand: Option<HandId>): (r: Item)
    requires Valid(item)
    ensures Valid(r)
    ensures r.pickups == RemainingPickups(item.pickups, hand)
    ensures r.pickups == map[] ==>
      && r.drag == item.startingDrag && r.angularDrag == item.startingAngularDrag
      && r.physics == Materials.EnablePhysicalMaterials(item.colliders, item.physics)
      && r.velocity == ApplyVelocityHistory(item).velocity
      && r.angularVelocity == ApplyVelocityHistory(item).angularVelocity
      && r.history.step == 0
      && |r.history.velocities| == |item.history.velocities|
      && (forall k :: 0 <= k < |r.history.velocities| ==>
            r.history.velocities[k].None? && r.history.angularVelocities[k].None?)
      && r.events == item.events + [OnEndInteraction]
    ensures r.pickups == map[] ==>
      r == item.(pickups := map[], drag := item.startingDrag, angularDrag := item.startingAngularDrag,
                 physics := Materials.EnablePhysicalMaterials(item.colliders, item.physics),
                 velocity := ApplyVelocityHistory(item).velocity,
                 angularVelocity := ApplyVelocityHistory(item).angularVelocity,
                 history := VelocityHistory.Reset(item.history),
                 events := item.events + [OnEndInteraction])
    ensures r.pickups != map[] ==> r == item.(pickups := r.pickups)
    ensures r.startingDrag == item.startingDrag && r.startingAngularDrag == item.startingAngularDrag
  {
    var remaining := RemainingPickups(item.pickups, hand);
    if remaining != map[] then item.(pickups := remaining)
    else
      var restored := item.(pickups := remaining, drag := item.startingDrag,
                            angularDrag := item.startingAngularDrag,
                            physics := Materials.EnablePhysicalMaterials(item.colliders, item.physics));
      var tossed := ResetVelocityHistory(ApplyVelocityHistory(restored));
      tossed.(events := item.events + [OnEndInteraction])
  }

  // ---------------------------------------------------------------------
  // External velocity

  /** Another object pushes a velocity into the item: stored as is when the
      accumulator is (approximately) zero, blended half-way otherwise. */
  function AddExternalVelocity(item: Item, v: Vec3): (r: Item)
    ensures r == item.(externalVelocity := r.externalVelocity)
    ensures ApproxZero(item.externalVelocity) ==> r.externalVelocity == v
    ensures !ApproxZero(item.externalVelocity) ==>
      Sub(v, r.externalVelocity) == Scale(Sub(v, item.externalVelocity), 0.5)
  {
    LerpHalfIsMidpoint(item.externalVelocity, v);
    if ApproxZero(item.externalVelocity) then item.(externalVelocity := v)
    else item.(externalVelocity := Lerp(item.externalVelocity, v, 0.5))
  }

  /** The angular counterpart of AddExternalVelocity. */
  function AddExternalAngularVelocity(item: Item, v: Vec3): (r: Item)
    ensures r == item.(externalAngularVelocity := r.externalAngularVelocity)
    ensures ApproxZero(item.externalAngularVelocity) ==> r.externalAngularVelocity == v
    ensures !ApproxZero(item.externalAngularVelocity) ==>
      Sub(v, r.externalAngularVelocity) == Scale(Sub(v, item.externalAngularVelocity), 0.5)
  {
    LerpHalfIsMidpoint(item.externalAngularVelocity, v);
    if ApproxZero(item.externalAngularVelocity) then item.(externalAngularVelocity := v)
    else item.(externalAngularVelocity := Lerp(item.externalAngularVelocity, v, 0.5))
  }

  /** Once per physics step: each velocity moves half-way toward a non-zero
      accumulator, which is then cleared; a zero accumulator changes
      nothing. */
  function AddExternalVelocities(item: Item): (r: Item)
    ensures r == item.(velocity := r.velocity, angularVelocity := r.angularVelocity,
                       externalVelocity := r.externalVelocity,
                       externalAngularVelocity := r.externalAngularVelocity)
    ensures ApproxZero(item.externalVelocity) ==>
      r.velocity == item.velocity && r.externalVelocity == item.externalVelocity
    ensures ApproxZero(r.externalVelocity) && ApproxZero(r.externalAngularVelocity)
    ensures !ApproxZero(item.externalVelocity) ==>
      && r.externalVelocity == Zero
      && Sub(item.externalVelocity, r.velocity) == Scale(Sub(item.externalVelocity, item.velocity), 0.5)
    ensures ApproxZero(item.externalAngularVelocity) ==>
      r.angularVelocity == item.angularVelocity && r.externalAngularVelocity == item.externalAngularVelocity
    ensures !ApproxZero(item.externalAngularVelocity) ==>
      && r.externalAngularVelocity == Zero
      && Sub(item.externalAngularVelocity, r.angularVelocity)
           == Scale(Sub(item.externalAngularVelocity, item.angularVelocity), 0.5)
  {
    LerpHalfIsMidpoint(item.velocity, item.externalVelocity);
    LerpHalfIsMidpoint(item.angularVelocity, item.externalAngularVelocity);
    var linear :=
      if ApproxZero(item.externalVelocity) then item
      else item.(velocity := Lerp(item.velocity, item.externalVelocity, 0.5), externalVelocity := Zero);
    if ApproxZero(linear.externalAngularVelocity) then linear
    else linear.(angularVelocity := Lerp(linear.angularVelocity, linear.externalAngularVelocity, 0.5),
                 externalAngularVelocity := Zero)
  }

  // ---------------------------------------------------------------------
  // The physics step

  /** One physics step of the item. When it is attached and was not dropped
      this step, the control step leaves the rigid body with the given
      velocities, which are also recorded in the history; then the external
      accumulators are applied. Whether the item is attached and whether it
      was dropped are decided by the base class and are parameters; ending
      the interaction on a drop happens in that base class, not here. */
  function PhysicsStep(item: Item, attached: bool, dropped: bool, controlled: Vec3, controlledAngular: Vec3): (r: Item)
    requires Valid(item)
    ensures Valid(r)
    ensures r.pickups == item.pickups && r.events == item.events
    ensures r.drag == item.drag && r.physics == item.physics
    ensures !(attached && !dropped) ==> r.history == item.history
    ensures attached && !dropped ==>
      r.history == VelocityHistory.Record(item.history, controlled, controlledAngular)
    ensures attached && !dropped && ApproxZero(item.externalVelocity) ==> r.velocity == controlled
  {
    var driven :=
      if attached && !dropped then
        item.(velocity := controlled, angularVelocity := controlledAngular,
              history := VelocityHistory.Record(item.history, controlled, controlledAngular))
      else item;
    AddExternalVelocities(driven)
  }
}

=== FILE: item_properties.dfy ===
/** Properties of the item's bookkeeping across several calls: the damping
    and material round trip for one hand, what a second hand loses, the
    release velocity, and the external-velocity channel. */
module ItemProperties {
  import opened Ids
  import opened Optional
  import opened Vectors
  import VelocityHistory
  import Materials
  import opened InteractableItem

  /** One hand grabbing and releasing an item nobody held gives back the
      damping, the materials and the velocities it had, leaves no pickup and
      raises exactly one begin and one end event. */
  lemma SingleHandRoundTrip(item: Item, hand: HandId)
    requires Valid(item) && item.pickups == map[]
    requires item.colliders.Some? ==> Materials.Distinct(item.colliders.value)
    ensures var held := BeginInteraction(item, hand).item;
      var released := EndInteraction(held, Some(hand));
      && released.drag == item.drag && released.angularDrag == item.angularDrag
      && released.physics.materials == item.physics.materials
      && released.velocity == item.velocity && released.angularVelocity == item.angularVelocity
      && released.pickups == map[]
      && released.events == item.events + [OnBeginInteraction, OnEndInteraction]
  {
    var held := BeginInteraction(item, hand).item;
    var released := EndInteraction(held, Some(hand));
    assert held.pickups.Keys == {hand};
    assert released.pickups == map[];
    Materials.RoundTrip(item.colliders, item.physics);
  }

  /** Two hands grabbing an item nobody held and letting go in either order:
      the second grab saved the already-lowered damping, so the item keeps
      the held damping for good, and every listed collider ends up with no
      material. */
  lemma SecondHandKeepsHeldDamping(item: Item, first: HandId, second: HandId, firstOut: bool)
    requires Valid(item) && item.pickups == map[] && first != second
    ensures var i1 := BeginInteraction(item, first).item;
      var i2 := BeginInteraction(i1, second).item;
      var i3 := EndInteraction(i2, Some(if firstOut then first else second));
      var i4 := EndInteraction(i3, Some(if firstOut then second else first));
      && i3.drag == HeldDrag && i3.events == item.events + [OnBeginInteraction, OnBeginInteraction]
      && i4.drag == HeldDrag && i4.angularDrag == HeldAngularDrag
      && i4.pickups == map[]
      && i4.events == item.events + [OnBeginInteraction, OnBeginInteraction, OnEndInteraction]
      && (item.colliders.Some? ==> forall c :: Some(c) in item.colliders.value ==>
            Materials.Lookup(i4.physics.materials, c).None?)
  {
    var i1 := BeginInteraction(item, first).item;
    var i2 := BeginInteraction(i1, second).item;
    var i3 := EndInteraction(i2, Some(if firstOut then first else second));
    assert i2.pickups.Keys == {first, second};
    assert i3.pickups.Keys == {if firstOut then second else first};
    assert i3.pickups != map[];
    if item.colliders.Some? {
      Materials.SecondDisableLosesMaterials(item.colliders.value, item.physics);
    }
  }

  /** Releasing with a null hand drops every hand at once and raises a single
      end event, whatever number of hands held the item. */
  lemma NullReleaseEndsOnce(item: Item)
    requires Valid(item)
    ensures var r := EndInteraction(item, None);
      r.pickups == map[] && r.events == item.events + [OnEndInteraction]
  {
  }

  /** Releasing an item nobody holds still runs the restore path: the end
      event is raised again and the saved damping is written back. The item
      itself does not guard against a repeated release. */
  lemma RepeatedReleaseFiresAgain(item: Item, hand: Option<HandId>)
    requires Valid(item)
    ensures var once := EndInteraction(item, hand);
      var twice := EndInteraction(once, hand);
      once.pickups == map[] ==>
        twice.events == once.events + [OnEndInteraction] && twice.drag == once.drag
  {
    var once := EndInteraction(item, hand);
    if once.pickups == map[] {
      assert RemainingPickups(once.pickups, hand) == map[];
    }
  }

  /** Releasing a freshly spawned item that was never grabbed writes the
      "nothing saved" marker into its damping. */
  lemma ReleaseBeforeAnyGrab(historySteps: int, drag: real, angularDrag: real, v: Vec3, w: Vec3,
                             colliders: Option<Materials.Colliders>, mats: Materials.Assignment, pose: Pose)
    ensures var r := EndInteraction(Spawn(historySteps, drag, angularDrag, v, w, colliders, mats, pose), None);
      r.drag == NoSavedDrag && r.angularDrag == NoSavedDrag && r.events == [OnEndInteraction]
  {
  }

  /** The release velocity after one held physics step is the velocity of
      that step: a grab empties the history, the step records one sample, and
      letting go applies the mean of that single sample. A push pending during
      the step moves the rigid body only after the sample is recorded, so it
      does not reach the release velocity. */
  lemma TossAfterOneStep(item: Item, hand: HandId, controlled: Vec3, controlledAngular: Vec3)
    requires Valid(item) && item.pickups == map[] && |item.history.velocities| > 0
    ensures var held := BeginInteraction(item, hand).item;
      var stepped := PhysicsStep(held, true, false, controlled, controlledAngular);
      var released := EndInteraction(stepped, Some(hand));
      released.velocity == controlled && released.angularVelocity == controlledAngular
  {
    var held := BeginInteraction(item, hand).item;
    var stepped := PhysicsStep(held, true, false, controlled, controlledAngular);
    assert stepped.pickups.Keys == {hand};
    assert EndInteraction(stepped, Some(hand)).pickups == map[];
    VelocityHistory.MeanAfterOneStep(held.history, controlled, controlledAngular);
  }

  /** A single push into an empty accumulator, applied at the next physics
      step, moves the velocity to the midpoint and clears the accumulator. */
  lemma PushThenStepHalvesGap(item: Item, v: Vec3)
    requires ApproxZero(item.externalVelocity) && !ApproxZero(v)
    ensures var r := AddExternalVelocities(AddExternalVelocity(item, v));
      && r.externalVelocity == Zero
      && r.velocity == Vec3((item.velocity.x + v.x) / 2.0, (item.velocity.y + v.y) / 2.0,
                            (item.velocity.z + v.z) / 2.0)
  {
    LerpHalfIsMidpoint(item.velocity, v);
  }

  /** Two pushes in one step leave the accumulator at the second push's
      midpoint with the first. */
  lemma TwoPushesBlend(item: Item, v: Vec3, u: Vec3)
    requires ApproxZero(item.externalVelocity) && !ApproxZero(v)
    ensures AddExternalVelocity(AddExternalVelocity(item, v), u).externalVelocity
              == Vec3((v.x + u.x) / 2.0, (v.y + u.y) / 2.0, (v.z + u.z) / 2.0)
  {
    LerpHalfIsMidpoint(v, u);
  }
}

=== FILE: materials.dfy ===
/** The interactable's physic-material cache. While an item is held, every
    one of its colliders loses its shared material (so held objects do not
    bounce or stick); the material is remembered per collider and put back
    when the item is released. */
module Materials {
  import opened Ids
  import opened Optional

  /** Each collider's shared material; a collider absent from the map has
      none (the engine's null material). */
  type Assignment = map<ColliderId, MaterialId>

  /** The remembered material per collider, null included. */
  type Cache = map<ColliderId, Option<MaterialId>>

  /** The item's collider array: entries may be null (destroyed colliders). */
  type Colliders = seq<Option<ColliderId>>

  datatype State = State(materials: Assignment, cache: Cache)

  function Lookup(mats: Assignment, c: ColliderId): (m: Option<MaterialId>)
    ensures m.Some? <==> c in mats
  {
    if c in mats then Some(mats[c]) else None
  }

  /** Two assignments that agree on every collider's material are equal. */
  lemma LookupExtensional(a: Assignment, b: Assignment)
    requires forall c :: Lookup(a, c) == Lookup(b, c)
    ensures a == b
  {
    forall c | c in a ensures c in b && a[c] == b[c] {
      assert Lookup(a, c) == Lookup(b, c);
    }
    forall c | c in b ensures c in a {
      assert Lookup(a, c) == Lookup(b, c);
    }
  }

  /** Setting one collider's shared material. */
  function Assign(mats: Assignment, c: ColliderId, m: Option<MaterialId>): (r: Assignment)
    ensures Lookup(r, c) == m
    ensures forall d :: d != c ==> Lookup(r, d) == Lookup(mats, d)
  {
    match m
    case Some(v) => mats[c := v]
    case None => mats - {c}
  }

  /** No collider occurs twice among the non-null entries. */
  predicate Distinct(cs: Colliders) {
    forall i, j :: 0 <= i < j < |cs| && cs[i].Some? ==> cs[i] != cs[j]
  }

  /** One iteration of the disabling loop: a null entry is skipped; otherwise
      the collider's current material is cached (overwriting any earlier
      entry) and the collider is left with none. */
  function DisableOne(entry: Option<ColliderId>, s: State): State {
    match entry
    case None => s
    case Some(c) => State(Assign(s.materials, c, None), s.cache[c := Lookup(s.materials, c)])
  }

  /** The disabling loop over the collider array, first entry first. */
  function DisableAll(cs: Colliders, s: State): (r: State)
    ensures forall c :: Some(c) in cs ==> Lookup(r.materials, c).None? && c in r.cache
    ensures forall c :: Some(c) !in cs ==> Lookup(r.materials, c) == Lookup(s.materials, c)
    ensures forall c :: Some(c) !in cs ==> (c in r.cache <==> c in s.cache)
    ensures forall c :: Some(c) !in cs && c in s.cache ==> r.cache[c] == s.cache[c]
    ensures Distinct(cs) ==> forall c :: Some(c) in cs ==> r.cache[c] == Lookup(s.materials, c)
    decreases |cs|
  {
    if |cs| == 0 then s
    else
      assert forall c :: Some(c) in cs <==> cs[0] == Some(c) || Some(c) in cs[1..];
      assert Distinct(cs) ==> Distinct(cs[1..]) && (cs[0].Some? ==> cs[0] !in cs[1..]) by {
        if Distinct(cs) {
          assert forall i, j :: 0 <= i < j < |cs[1..]| ==> cs[1..][i] == cs[i + 1] && cs[1..][j] == cs[j + 1];
        }
      }
      DisableAll(cs[1..], DisableOne(cs[0], s))
  }

  /** One iteration of the restoring loop: a null entry is skipped; a
      collider with a cache entry gets the cached material back; one without
      keeps what it has. The cache itself is never cleared. */
  function EnableOne(entry: Option<ColliderId>, s: State): State {
    match entry
    case None => s
    case Some(c) =>
      if c in s.cache then s.(materials := Assign(s.materials, c, s.cache[c])) else s
  }

  /** The restoring loop over the collider array, first entry first. */
  function EnableAll(cs: Colliders, s: State): (r: State)
    ensures r.cache == s.cache
    ensures forall c :: Some(c) in cs && c in s.cache ==> Lookup(r.materials, c) == s.cache[c]
    ensures forall c :: !(Some(c) in cs && c in s.cache) ==> Lookup(r.materials, c) == Lookup(s.materials, c)
    decreases |cs|
  {
    if |cs| == 0 then s
    else
      assert forall c :: Some(c) in cs <==> cs[0] == Some(c) || Some(c) in cs[1..];
      EnableAll(cs[1..], EnableOne(cs[0], s))
  }

  /** NVRInteractableItem's DisablePhysicalMaterials: nothing at all when the
      collider array is null. */
  function DisablePhysicalMaterials(colliders: Option<Colliders>, s: State): (r: State)
    ensures colliders.None? ==> r == s
  {
    match colliders
    case None => s
    case Some(cs) => DisableAll(cs, s)
  }

  /** NVRInteractableItem's EnablePhysicalMaterials: nothing at all when the collider
      array is null. */
  function EnablePhysicalMaterials(colliders: Option<Colliders>, s: State): (r: State)
    ensures colliders.None? ==> r == s
  {
    match colliders
    case None => s
    case Some(cs) => EnableAll(cs, s)
  }

  /** Disabling then restoring gives every collider back the material it had,
      when no collider is listed twice. */
  lemma RoundTrip(colliders: Option<Colliders>, s: State)
    requires colliders.Some? ==> Distinct(colliders.value)
    ensures EnablePhysicalMaterials(colliders, DisablePhysicalMaterials(colliders, s)).materials == s.materials
  {
    if colliders.Some? {
      var cs := colliders.value;
      var d := DisableAll(cs, s);
      var e := EnableAll(cs, d);
      forall c ensures Lookup(e.materials, c) == Lookup(s.materials, c) {
        if Some(c) in cs {
          assert c in d.cache;
        }
      }
      LookupExtensional(e.materials, s.materials);
    }
  }

  /** Disabling twice before restoring (a second hand grabbing the item)
      caches the already-cleared materials: on restore every listed collider
      ends up with no material at all. */
  lemma SecondDisableLosesMaterials(cs: Colliders, s: State)
    ensures var e := EnableAll(cs, DisableAll(cs, DisableAll(cs, s)));
      forall c :: Some(c) in cs ==> Lookup(e.materials, c).None?
  {
    var d1 := DisableAll(cs, s);
    var d2 := DisableAll(cs, d1);
    var e := EnableAll(cs, d2);
    forall c | Some(c) in cs ensures Lookup(e.materials, c).None? {
      CacheOfClearedIsNull(cs, d1, c);
    }
  }

  /** Disabling a state in which a listed collider has no material caches
      null for it, however often it is listed. */
  lemma {:induction false} CacheOfClearedIsNull(cs: Colliders, s: State, c: ColliderId)
    requires Some(c) in cs
    requires forall d :: Some(d) in cs ==> Lookup(s.materials, d).None?
    ensures DisableAll(cs, s).cache[c].None?
    decreases |cs|
  {
    assert forall d :: Some(d) in cs <==> cs[0] == Some(d) || Some(d) in cs[1..];
    var s1 := DisableOne(cs[0], s);
    if Some(c) in cs[1..] {
      CacheOfClearedIsNull(cs[1..], s1, c);
    }
  }

  /** Restoring twice is the same as restoring once. */
  lemma EnableIdempotent(colliders: Option<Colliders>, s: State)
    ensures var once := EnablePhysicalMaterials(colliders, s);
      EnablePhysicalMaterials(colliders, once) == once
  {
    if colliders.Some? {
      var cs := colliders.value;
      var once := EnableAll(cs, s);
      var twice := EnableAll(cs, once);
      forall c ensures Lookup(twice.materials, c) == Lookup(once.materials, c) {
      }
      LookupExtensional(twice.materials, once.materials);
    }
  }
}

=== FILE: option.dfy ===
/** The engine's nullable references: `None` is null. */
module Optional {
  datatype Option<+T> = None | Some(value: T)
}

=== FILE: pose_ring.dfy ===
/** The hand's ring buffer of recent positions and physics timesteps, written
    once per physics step and read back as a position delta between the two
    most recent samples. Rotations are not kept: the quaternion arithmetic
    that reads them is not modelled. */
module PoseRing {
  import opened Vectors

  /** The number of samples the hand keeps. */
  const EstimationSamples: nat := 5

  datatype Ring = Ring(index: int, positions: seq<Vec3>, deltas: seq<real>)

  /** Both arrays have the configured length and the write index is a slot. */
  predicate Valid(r: Ring) {
    && |r.positions| == EstimationSamples
    && |r.deltas| == EstimationSamples
    && 0 <= r.index < EstimationSamples
  }

  /** The buffers as first allocated: zero positions and deltas, index 0. */
  function Empty(): (r: Ring)
    ensures Valid(r)
    ensures forall k :: 0 <= k < |r.positions| ==> r.positions[k] == Zero
  {
    Ring(0, seq(EstimationSamples, _ => Zero), seq(EstimationSamples, _ => 0.0))
  }

  /** One physics step: writes the current sample at the index, then advances
      the index, wrapping to 0 at the end of the buffer. */
  function Push(r: Ring, position: Vec3, dt: real): (r': Ring)
    requires Valid(r)
    ensures Valid(r')
    ensures r'.index == (r.index + 1) % EstimationSamples
    ensures r'.positions[r.index] == position && r'.deltas[r.index] == dt
    ensures forall k :: 0 <= k < EstimationSamples && k != r.index ==>
      r'.positions[k] == r.positions[k] && r'.deltas[k] == r.deltas[k]
  {
    var next := r.index + 1;
    Ring(if next >= |r.positions| then 0 else next,
         r.positions[r.index := position],
         r.deltas[r.index := dt])
  }

  /** The slot `back` writes before the current index (1 = the latest). */
  function Behind(r: Ring, back: int): (k: int)
    requires Valid(r)
    requires 1 <= back <= 2
    ensures 0 <= k < EstimationSamples
    ensures (k + back) % EstimationSamples == r.index
  {
    var k := r.index - back;
    if k < 0 then k + EstimationSamples else k
  }

  /** The latest sampled position minus the one sampled before it. */
  function PositionDelta(r: Ring): Vec3
    requires Valid(r)
  {
    Sub(r.positions[Behind(r, 1)], r.positions[Behind(r, 2)])
  }

  /** The delta read after two consecutive steps is the second sampled
      position minus the first, wherever the index stood. */
  lemma PositionDeltaAfterTwoSteps(r: Ring, p: Vec3, dtp: real, q: Vec3, dtq: real)
    requires Valid(r)
    ensures PositionDelta(Push(Push(r, p, dtp), q, dtq)) == Sub(q, p)
  {
    var r1 := Push(r, p, dtp);
    var r2 := Push(r1, q, dtq);
    assert Behind(r2, 1) == r1.index;
    assert Behind(r2, 2) == r.index;
  }
}

=== FILE: tracking.dfy ===
/** The two discrete fragments of the item's velocity control step: choosing
    the interaction point nearest the holding hand, and folding the rotation
    angle into a signed range. */
module Tracking {

  /** Distances at or beyond this are never chosen. */
  const NoPointWithin: real := 100.0

  /** `k` is the first index whose distance is the least of all and below
      the cut-off. */
  predicate IsFirstNearest(distances: seq<real>, k: int) {
    && 0 <= k < |distances|
    && distances[k] < NoPointWithin
    && (forall j :: 0 <= j < |distances| ==> distances[k] <= distances[j])
    && (forall j :: 0 <= j < k ==> distances[k] < distances[j])
  }

  /** NVRInteractableItem's selection loop over the interaction points' distances to
      the hand: a point is taken whenever it is strictly nearer than the best
      so far, starting from the cut-off and index 0. */
  method NearestInteractionPoint(distances: seq<real>) returns (k: nat)
    ensures (exists j :: 0 <= j < |distances| && distances[j] < NoPointWithin) ==> IsFirstNearest(distances, k)
    ensures (forall j :: 0 <= j < |distances| ==> distances[j] >= NoPointWithin) ==> k == 0
  {
    var minDistance := NoPointWithin;
    k := 0;
    var i := 0;
    while i < |distances|
      invariant 0 <= i <= |distances|
      invariant minDistance <= NoPointWithin
      invariant forall j :: 0 <= j < i ==> minDistance <= distances[j]
      invariant minDistance < NoPointWithin ==>
        && k < i
        && minDistance == distances[k]
        && (forall j :: 0 <= j < k ==> distances[k] < distances[j])
      invariant minDistance == NoPointWithin ==> k == 0 && forall j :: 0 <= j < i ==> distances[j] >= NoPointWithin
    {
      if distances[i] < minDistance {
        minDistance := distances[i];
        k := i;
      }
      i := i + 1;
    }
  }

  /** There is only one first nearest index. */
  lemma FirstNearestUnique(distances: seq<real>, k: int, k': int)
    requires IsFirstNearest(distances, k) && IsFirstNearest(distances, k')
    ensures k == k'
  {
  }

  /** The rotation angle (in degrees, as the engine reports it) folded into
      the signed range: only an angle above 180 loses a full turn. */
  function NormalizeAngle(angle: real): (r: real)
    ensures r == angle || r == angle - 360.0
    ensures r != angle <==> angle > 180.0
    ensures 0.0 <= angle <= 360.0 ==> -180.0 < r <= 180.0
  {
    if angle > 180.0 then angle - 360.0 else angle
  }

  /** For an angle of at most a full turn, the result is the only value in
      (-180, 180] that differs from it by a whole number of turns (zero or
      one). */
  lemma NormalizeAngleIsTheSignedRepresentative(angle: real, s: real)
    requires 0.0 <= angle <= 360.0
    requires -180.0 < s <= 180.0 && (s == angle || s == angle - 360.0)
    ensures NormalizeAngle(angle) == s
  {
  }

  lemma ThreeQuarterTurnIsMinusQuarter()
    ensures NormalizeAngle(270.0) == -90.0
    ensures NormalizeAngle(180.0) == 180.0
  {
  }
}

=== FILE: vectors.dfy ===
/** Three-component vectors over the reals, standing in for the engine's
    single-precision Vector3. Rounding is not modelled; the engine's equality
    operator (an approximate comparison) is. */
module Vectors {

  datatype Vec3 = Vec3(x: real, y: real, z: real)

  /** A rotation kept only as data: no quaternion arithmetic is modelled. */
  datatype Quat = Quat(x: real, y: real, z: real, w: real)

  /** A position and rotation pair, as captured in a helper transform. */
  datatype Pose = Pose(position: Vec3, rotation: Quat)

  const Zero: Vec3 := Vec3(0.0, 0.0, 0.0)

  function Add(a: Vec3, b: Vec3): Vec3 {
    Vec3(a.x + b.x, a.y + b.y, a.z + b.z)
  }

  function Sub(a: Vec3, b: Vec3): Vec3 {
    Vec3(a.x - b.x, a.y - b.y, a.z - b.z)
  }

  function Scale(a: Vec3, k: real): Vec3 {
    Vec3(a.x * k, a.y * k, a.z * k)
  }

  function SqrMagnitude(a: Vec3): real {
    a.x * a.x + a.y * a.y + a.z * a.z
  }

  /** The engine's `Vector3 ==`: true when the squared length of the
      difference is below 1e-10 (epsilon 1e-5, squared). */
  predicate ApproxEqual(a: Vec3, b: Vec3) {
    SqrMagnitude(Sub(a, b)) < 1.0 / 10_000_000_000.0
  }

  predicate ApproxZero(a: Vec3) {
    ApproxEqual(a, Zero)
  }

  /** The engine's `Vector3.Lerp(a, b, t)` for a weight already in [0, 1]. */
  function Lerp(a: Vec3, b: Vec3, t: real): (r: Vec3)
    requires 0.0 <= t <= 1.0
    ensures t == 0.0 ==> r == a
    ensures t == 1.0 ==> r == b
  {
    Add(a, Scale(Sub(b, a), t))
  }

  /** The weight-one-half interpolation is the component-wise midpoint, and it
      halves the remaining difference to the target. */
  lemma LerpHalfIsMidpoint(a: Vec3, b: Vec3)
    ensures Lerp(a, b, 0.5) == Vec3((a.x + b.x) / 2.0, (a.y + b.y) / 2.0, (a.z + b.z) / 2.0)
    ensures Sub(b, Lerp(a, b, 0.5)) == Scale(Sub(b, a), 0.5)
  {
  }
}

=== FILE: velocity_history.dfy ===
/** The interactable's rolling history of resolved velocities and angular
    velocities, and its mean: the "toss" velocity applied on release.

    An unallocated history (NVRInteractableItem's null arrays) is the empty sequence:
    the arrays are only ever allocated with a positive length, and both
    readings behave alike everywhere. */
module VelocityHistory {
  import opened Optional
  import opened Vectors

  type Slots = seq<Option<Vec3>>

  datatype History = History(velocities: Slots, angularVelocities: Slots, step: int)

  /** Both arrays have the same length and the step is a slot (0 when there
      are no slots). */
  predicate Valid(h: History) {
    && |h.angularVelocities| == |h.velocities|
    && 0 <= h.step
    && (h.step < |h.velocities| || h.step == 0)
  }

  function EmptySlots(n: nat): (s: Slots)
    ensures |s| == n
    ensures forall k :: 0 <= k < n ==> s[k].None?
  {
    seq(n, _ => None)
  }

  /** The arrays as allocated at start-up: only when the configured number of
      steps is positive. */
  function Allocate(steps: int): (h: History)
    ensures Valid(h) && h.step == 0
    ensures |h.velocities| == (if steps > 0 then steps else 0)
    ensures forall k :: 0 <= k < |h.velocities| ==> h.velocities[k].None? && h.angularVelocities[k].None?
  {
    if steps > 0 then History(EmptySlots(steps), EmptySlots(steps), 0)
    else History([], [], 0)
  }

  /** Empties every slot and rewinds the step, keeping the length. */
  function Reset(h: History): (r: History)
    requires Valid(h)
    ensures Valid(r)
    ensures r.step == 0
    ensures |r.velocities| == |h.velocities| && |r.angularVelocities| == |h.angularVelocities|
    ensures forall k :: 0 <= k < |r.velocities| ==> r.velocities[k].None? && r.angularVelocities[k].None?
  {
    if |h.velocities| > 0 then
      History(EmptySlots(|h.velocities|), EmptySlots(|h.velocities|), 0)
    else h.(step := 0)
  }

  /** One physics step's history update: the step advances (wrapping to 0)
      and the resolved velocities are written at the new step. Nothing happens
      without slots. */
  function Record(h: History, velocity: Vec3, angularVelocity: Vec3): (r: History)
    requires Valid(h)
    ensures Valid(r)
    ensures |r.velocities| == |h.velocities|
    ensures |h.velocities| == 0 ==> r == h
    ensures |h.velocities| > 0 ==>
      && r.step == (h.step + 1) % |h.velocities|
      && r.velocities[r.step] == Some(velocity)
      && r.angularVelocities[r.step] == Some(angularVelocity)
      && (forall k :: 0 <= k < |h.velocities| && k != r.step ==>
            r.velocities[k] == h.velocities[k] && r.angularVelocities[k] == h.angularVelocities[k])
  {
    if |h.velocities| == 0 then h
    else
      var next := h.step + 1;
      var s := if next >= |h.velocities| then 0 else next;
      History(h.velocities[s := Some(velocity)], h.angularVelocities[s := Some(angularVelocity)], s)
  }

  // ---------------------------------------------------------------------
  // The mean

  /** Number of filled slots. */
  function CountPresent(s: Slots): (n: nat)
    ensures n <= |s|
  {
    if |s| == 0 then 0
    else CountPresent(s[..|s| - 1]) + (if s[|s| - 1].Some? then 1 else 0)
  }

  /** Component-wise sum of the filled slots. */
  function SumPresent(s: Slots): Vec3 {
    if |s| == 0 then Zero
    else
      var last := s[|s| - 1];
      Add(SumPresent(s[..|s| - 1]), if last.Some? then last.value else Zero)
  }

  lemma {:induction false} NoneCountZero(s: Slots)
    ensures CountPresent(s) == 0 <==> forall k :: 0 <= k < |s| ==> s[k].None?
    decreases |s|
  {
    if |s| > 0 {
      NoneCountZero(s[..|s| - 1]);
      assert forall k :: 0 <= k < |s| - 1 ==> s[..|s| - 1][k] == s[k];
    }
  }

  /** The arithmetic mean of the filled slots, component by component, or
      None when no slot is filled. */
  function Mean(s: Slots): (r: Option<Vec3>)
    ensures r.None? <==> forall k :: 0 <= k < |s| ==> s[k].None?
  {
    NoneCountZero(s);
    var n := CountPresent(s);
    if n == 0 then None
    else
      var sum := SumPresent(s);
      Some(Vec3(sum.x / n as real, sum.y / n as real, sum.z / n as real))
  }

  /** NVRInteractableItem's GetMeanVector loop computing the mean of the filled slots. */
  method GetMeanVector(s: Slots) returns (r: Option<Vec3>)
    ensures r == Mean(s)
    ensures r.None? <==> forall k :: 0 <= k < |s| ==> s[k].None?
  {
    var x, y, z := 0.0, 0.0, 0.0;
    var count := 0;
    var index := 0;
    while index < |s|
      invariant 0 <= index <= |s|
      invariant count == CountPresent(s[..index])
      invariant Vec3(x, y, z) == SumPresent(s[..index])
    {
      assert s[..index + 1][..index] == s[..index];
      if s[index].Some? {
        x := x + s[index].value.x;
        y := y + s[index].value.y;
        z := z + s[index].value.z;
        count := count + 1;
      }
      index := index + 1;
    }
    assert s[..|s|] == s;
    if count > 0 {
      r := Some(Vec3(x / count as real, y / count as real, z / count as real));
    } else {
      r := None;
    }
  }

  /** A history with exactly one filled slot, at `k`, counts one slot and
      sums to that slot's vector, in every prefix past `k`. */
  lemma {:induction false} OneFilledSlot(s: Slots, k: int, v: Vec3, i: int)
    requires 0 <= k < |s| && s[k] == Some(v)
    requires forall j :: 0 <= j < |s| && j != k ==> s[j].None?
    requires 0 <= i <= |s|
    ensures CountPresent(s[..i]) == (if i > k then 1 else 0)
    ensures SumPresent(s[..i]) == (if i > k then v else Zero)
    decreases i
  {
    if i > 0 {
      assert s[..i][..i - 1] == s[..i - 1];
      OneFilledSlot(s, k, v, i - 1);
    }
  }

  lemma MeanOfOneFilledSlot(s: Slots, k: int, v: Vec3)
    requires 0 <= k < |s| && s[k] == Some(v)
    requires forall j :: 0 <= j < |s| && j != k ==> s[j].None?
    ensures Mean(s) == Some(v)
  {
    OneFilledSlot(s, k, v, |s|);
    assert s[..|s|] == s;
  }

  /** After a single step recorded into an empty history (as after a
      reset), the mean is exactly what that step recorded. */
  lemma MeanAfterOneStep(h: History, v: Vec3, w: Vec3)
    requires Valid(h) && |h.velocities| > 0
    requires forall k :: 0 <= k < |h.velocities| ==> h.velocities[k].None? && h.angularVelocities[k].None?
    ensures var r := Record(h, v, w);
      Mean(r.velocities) == Some(v) && Mean(r.angularVelocities) == Some(w)
  {
    var r := Record(h, v, w);
    MeanOfOneFilledSlot(r.velocities, r.step, v);
    MeanOfOneFilledSlot(r.angularVelocities, r.step, w);
  }
}
